=== FILE: README.md ===
# disk_space native core, modelled in Dafny

`DiskSpace.stat_fs/1` reports the capacity of the filesystem that holds a
directory: `{:ok, %{available, free, total, used}}` in bytes, or
`{:error, reason}` / `{:error, reason, %{errno, errstr}}`. It has two native
implementations: a C NIF (`c_src/disk_space.c`) and a Rust NIF built with
rustler (`native/diskspace/src/lib.rs`). This project models the decision
logic of both as pure functions and proves what they promise:

- `Utf8`: the C validator `is_valid_utf8` as an index loop
  (`IsValidUtf8`). It is proved to decide a grammar written by the byte
  ranges of RFC 3629 section 4. The grammar has one deliberate deviation,
  because the code has it: after the lead 0xF4 every continuation byte is
  accepted. The encodings of U+110000..U+13FFFF therefore pass. The
  module also proves that this is the only difference from RFC 3629.
  For the Rust `CStr::to_str` it decodes RFC 3629 bytes into characters
  (`Decode`). Encoding the decoded text gives the bytes back.
- `Utf16`: `WideCString::from_str`, the UTF-16 code units of a string,
  with surrogate pairs above U+FFFF. Reading the units back gives the
  string.
- `CStrings`: the string a `char*` denotes, which is the bytes before the
  first NUL.
- `LongPath`: the C `prepare_long_path` and the Rust long-path/UNC rewrite.
  The Rust rewrite is modelled literally: `\\srv\share` becomes
  `\\?\UNCsrv\share`, without the backslash after `UNC`.
- `Host`: the path term and the platform. The operating system is an
  oracle: each system call is a function of exactly the path the code
  passes it. Allocation outcomes for the C NIF are separate booleans.
- `Capacity`: the closed reason taxonomy, the detail map, the four-field
  result, and the `used` invariant.
- `CNif` and `RustNif`: path intake and `stat_fs` for Windows, Linux and
  other POSIX systems.
- `Agreement`: where the two NIFs agree and where they part. On Windows,
  for a path that is RFC 3629 UTF-8 and a `MultiByteToWideChar` that
  yields its UTF-16 code units, the two query the same wide path when the
  path is not UNC and different ones when it is. A path the C validator
  accepts but RFC 3629 rejects (F4 90 80 80) is queried by the C code
  only: the Rust code answers `path_conversion_failed`.

Behaviour of the code that the model keeps and the proofs make visible:

- The C intake accepts a binary with an interior NUL. Every system call
  then sees only the bytes before it (`CNif.InteriorNulTruncates`). The
  Rust intake rejects such a binary but does not check UTF-8 at all.
- On Linux the C code asks `statvfs` and falls back to `statfs`, so it
  never reports `statvfs_failed`. The statvfs errno is dropped. The Rust
  code asks only `statfs`.
- The Rust `winapi_failed` code is the HRESULT that the `windows` crate
  builds from `GetLastError` (`e.code().0 as u32`). The C code reports
  `GetLastError` itself.

Byte counts are `uint64_t` products that wrap modulo 2^64. This is the C
semantics, and the semantics of a Rust release build.

## Model

| member | source | states |
|---|---|---|
| Unsigned.WrappingMul | c_src/disk_space.c:391-393 | a byte field is the count times the unit size, reduced modulo 2^64; it is the exact product whenever that fits in 64 bits |
| Unsigned.ClampedDifference | c_src/disk_space.c:396-399 | `used` never exceeds `total`; `used + free == total` when `total >= free`, and `used == 0` otherwise |
| Unsigned.SaturatingSubIsClampedDifference | native/diskspace/src/lib.rs:241 | Rust's `saturating_sub`, defined as the exact difference saturated at the u64 bounds, equals the C code's guarded subtraction |
| Unsigned.UnguardedSubtractionOverstates | c_src/disk_space.c:396-399 | without the guard, `free > total` would wrap `used` to more than `total`; the guard yields 0 |
| Utf8.IsValidUtf8 | c_src/disk_space.c:107-137 | the mask-dispatching index loop returns 1 exactly when the bytes split into characters of the range grammar |
| Utf8.AsciiIsWellFormed | c_src/disk_space.c:107-112 | the empty sequence and every all-ASCII sequence are accepted |
| Utf8.WellFormedPrefix | c_src/disk_space.c:108-135 | a well-formed prefix does not change the verdict on what follows, so each rejection holds at every character boundary |
| Utf8.RejectedForms | c_src/disk_space.c:113-134 | rejected: truncated sequences, non-10xxxxxx continuations, leads 80..BF and F8..FF, overlong C0/C1, E0 80..9F, F0 80..8F, surrogates ED A0..BF, leads F5..F7 |
| Utf8.Rfc3629IsWellFormed | c_src/disk_space.c:124-130 | everything RFC 3629 accepts, the validator accepts |
| Utf8.WellFormedIsRfc3629 | c_src/disk_space.c:128-129 | a sequence without the pair F4 90..BF that the validator accepts is RFC 3629 UTF-8 |
| Utf8.BeyondUnicodeAccepted | c_src/disk_space.c:128-129 | F4 90 80 80 (the would-be U+110000) passes the validator but is not RFC 3629 UTF-8 |
| CStrings.CStr | c_src/disk_space.c:156-157 | a `char*` denotes the longest NUL-free prefix of its buffer, ending at the first NUL |
| CStrings.CStrOfTerminated | c_src/disk_space.c:156-157 | a NUL-free string followed by a NUL, and anything after it, reads back as that string |
| LongPath.PrepareLongPath | c_src/disk_space.c:235-254 | the result always starts with `\\?\`; an unprefixed path gets the prefix and its length grows by 4; a prefixed path is unchanged |
| LongPath.PrepareLongPathIdempotent | c_src/disk_space.c:238-253 | applying `prepare_long_path` to its own result changes neither path nor length |
| LongPath.RewriteLongPath | native/diskspace/src/lib.rs:166-173 | the result always starts with `\\?\`; a UNC path becomes `\\?\UNC` plus the path after its first two characters; other unprefixed paths get `\\?\`; prefixed paths are unchanged |
| LongPath.RewriteLongPathIdempotent | native/diskspace/src/lib.rs:166-173 | rewriting a rewritten path changes nothing |
| LongPath.WidenStartsWith | c_src/disk_space.c:236-238 | a string starts with an ASCII string exactly when its UTF-16 units start with that string's units, so testing the prefix before or after conversion gives the same answer |
| LongPath.RewriteMatchesPrepareOffUnc | native/diskspace/src/lib.rs:169-175 | off UNC paths, converting the Rust rewrite to UTF-16 gives exactly the path and length that `prepare_long_path` builds from the converted path |
| LongPath.UncRewriteDiffersFromPrepare | native/diskspace/src/lib.rs:166-168 | on UNC paths the C code yields `\\?\` before the whole path and the Rust code yields `\\?\UNC` before the path's tail, and the two unit sequences differ |
| LongPath.RewriteKeepsNoNul | native/diskspace/src/lib.rs:167-178 | the rewrite adds no NUL to a NUL-free path, so `WideCString::from_str` cannot fail on a path from the intake |
| Utf8.CodePoint | native/diskspace/src/lib.rs:161-164 | an encoded character of 1, 2, 3 or 4 bytes stands for a value in exactly that row of the RFC 3629 table (below 0x80 and equal to the byte, 0x80..0x7FF, 0x800..0xFFFF, 0x10000 and up), so no overlong form is read |
| Utf8.EncodeCodePoint | native/diskspace/src/lib.rs:161-164 | encoding the value a character decodes to gives back exactly its bytes |
| Utf8.Decode | native/diskspace/src/lib.rs:161-164 | `CStr::to_str` on RFC 3629 bytes gives no more characters than bytes, and a NUL-free input gives a NUL-free text |
| Utf8.EncodeDecode | native/diskspace/src/lib.rs:161-164 | decoding loses nothing: encoding the decoded text gives back the bytes |
| Utf8.DecodeAsciiHead | native/diskspace/src/lib.rs:161-166 | an ASCII byte in front of valid UTF-8 decodes to the same character in front of the decoded rest |
| Utf8.DecodeFirst | native/diskspace/src/lib.rs:161-166 | the first decoded character is the first byte when that byte is ASCII, and is never an ASCII character otherwise |
| Utf16.NarrowWiden | native/diskspace/src/lib.rs:175-178 | widening a string to UTF-16 loses nothing: reading the units back gives the string |
| Utf16.WideCStringFromStr | native/diskspace/src/lib.rs:175-178 | the conversion fails exactly when the string holds a NUL; otherwise it yields the string's UTF-16 units, which read back as the string |
| LongPath.UncRewriteDropsSeparator | native/diskspace/src/lib.rs:168 | `\\srv\share` becomes `\\?\UNCsrv\share`, with no separator after `UNC` |
| Capacity.ScaleBlocks | c_src/disk_space.c:382-393 | the byte fields are the block counts times one shared unit size, exact when no product overflows |
| Capacity.ScaleBlocksMonotone | c_src/disk_space.c:391-393 | without overflow, available <= free <= total in blocks gives the same order in bytes |
| CNif.PathFromTerm | c_src/disk_space.c:142-188 | a binary is accepted exactly when it is non-empty, valid UTF-8 and its buffer is allocated, and it yields its bytes plus one NUL; a list is accepted exactly when it is convertible text of 1 to 255 bytes and the buffers are allocated, and yields the text plus one NUL; other terms give NULL |
| CNif.NativeError | c_src/disk_space.c:55-104 | a native failure carries its reason and a detail of exactly the code and the message when the result term can be built, and is bare `alloc_failed` otherwise |
| CNif.WinapiMessage | c_src/disk_space.c:193-199 | the message is the system text, or "Unknown WinAPI error" when `FormatMessageW` finds none |
| CNif.Success | c_src/disk_space.c:396-419 | the result is a success exactly when the map can be built; it then keeps the three counts and satisfies the `used` invariant; otherwise it is bare `alloc_failed` |
| CNif.WindowsQueries | c_src/disk_space.c:309-355 | the attribute and disk queries end in `alloc_failed`, `not_directory`, `winapi_failed` or a consistent success |
| CNif.StatPath | c_src/disk_space.c:280-420 | once the path buffer exists, every outcome is a native result of its platform, never `wrong_arity` or `invalid_path` |
| CNif.WindowsStatFs | c_src/disk_space.c:280-355 | the Windows branch ends in `path_conversion_failed`, `alloc_failed`, `not_directory`, `winapi_failed` or a consistent success, with detail only on native failures |
| CNif.PosixStatFs | c_src/disk_space.c:357-420 | the POSIX branch never reports `statvfs_failed` on Linux and never `statfs_failed` elsewhere |
| CNif.StatFs | c_src/disk_space.c:270-278 | argc other than 1 gives `wrong_arity`, a failed intake gives `invalid_path` without detail, and each platform's reasons stay within its own subset of the taxonomy |
| CNif.OsSeesBinary | c_src/disk_space.c:144-158 | an accepted NUL-free binary reaches every system call as exactly its bytes |
| CNif.IntakePrecedesNativeCalls | c_src/disk_space.c:271-278 | when arity or intake fails, the outcome is the same whatever the operating system would reply |
| CNif.LeadingNulReachesStat | c_src/disk_space.c:144-158 | a valid-UTF-8 binary whose first byte is NUL passes the intake, and on POSIX the system calls receive the empty path, so a failing `stat("")` answers `not_directory` with ENOENT where the empty binary gets `invalid_path` |
| CNif.IntendedPathFromTerm | c_src/disk_space.c:139-147 | the corrected intake never yields a buffer whose C string is empty, and yields what the code yields whenever the code's buffer has a non-empty C string |
| CNif.IntendedStatFs | c_src/disk_space.c:270-278 | with the corrected intake, arity and intake failures still come first and each platform keeps its reasons |
| CNif.IntendedRejectsEmptyCString | c_src/disk_space.c:139-147 | with the corrected intake every binary starting with NUL gets `invalid_path` before any system call, and every input whose C string is not empty answers as `stat_fs` does |
| CNif.InteriorNulTruncates | c_src/disk_space.c:144-158 | `stat_fs` on a binary with an interior NUL answers exactly as on the part before the NUL, when the part before is non-empty and the whole binary is valid UTF-8 |
| CNif.PosixNotDirectory | c_src/disk_space.c:359-368 | a failed `stat` gives `not_directory` with its errno and message; an existing non-directory gives `not_directory` without detail |
| CNif.PosixStatvfsBytes | c_src/disk_space.c:370-394 | after a successful `statvfs`, each field is its count times `f_frsize` and `statfs` is never consulted |
| CNif.LinuxStatfsFallback | c_src/disk_space.c:374-384 | on Linux a failed `statvfs` falls back to `statfs`, with counts times `f_bsize`, or `statfs_failed` with the `statfs` errno |
| CNif.OtherPosixStatvfsFailure | c_src/disk_space.c:385-389 | off Linux a failed `statvfs` gives `statvfs_failed` with its errno, and `statfs` is never consulted |
| CNif.WindowsOutcomes | c_src/disk_space.c:300-355 | the Windows queries get the prefixed path; attribute failure gives `not_directory` with the Win32 code; a non-directory gives bare `not_directory`; a disk query failure gives `winapi_failed`; success carries the four counts |
| RustNif.PathFromTerm | native/diskspace/src/lib.rs:127-150 | a binary is accepted exactly when it is non-empty and NUL-free, and yields its bytes verbatim with no UTF-8 check; a term rustler decodes as a `String` is accepted exactly when that string is NUL-free, even if empty |
| RustNif.CStringNew | native/diskspace/src/lib.rs:137-149 | `CString::new` succeeds exactly on NUL-free bytes, keeps them all, and its C string reads back as the input |
| RustNif.ErrnoError | native/diskspace/src/lib.rs:77-84 | the detail code is `raw_os_error`, or 0 when there is none |
| RustNif.WinapiError | native/diskspace/src/lib.rs:106-123 | the detail carries the Win32 code, and the message is "Unknown WinAPI error" when `FormatMessageW` returns 0 |
| RustNif.HresultFromWin32 | native/diskspace/src/lib.rs:201-202 | the reported code keeps zero and negative HRESULTs, and maps every other Win32 code into 0x80070000..0x8007FFFF with the same low 16 bits |
| RustNif.Success | native/diskspace/src/lib.rs:205-210 | the success map keeps the three counts and satisfies the `used` invariant |
| RustNif.WindowsStatFs | native/diskspace/src/lib.rs:159-215 | the Windows branch ends in `path_conversion_failed`, `not_directory`, `winapi_failed` or a consistent success |
| RustNif.WindowsQueries | native/diskspace/src/lib.rs:181-214 | the attribute and disk queries end in `not_directory`, `winapi_failed` or a consistent success |
| RustNif.WindowsQueriesRewrittenPath | native/diskspace/src/lib.rs:161-179 | a NUL-free RFC 3629 path always converts, and the queries receive the UTF-16 units of its decoded, rewritten text |
| RustNif.WindowsQueriesOutcomes | native/diskspace/src/lib.rs:181-214 | an attribute failure gives `not_directory` with the Win32 code, a non-directory bare `not_directory`, a disk failure `winapi_failed` with the HRESULT, and success the four counts with saturating `used` |
| RustNif.UncBinaryQueries | native/diskspace/src/lib.rs:166-168 | the binary `\\` followed by a rest not starting with `?` is queried as `\\?\UNC` directly followed by the decoded rest |
| RustNif.UnixStatFs | native/diskspace/src/lib.rs:217-277 | the Unix branch never reports `statvfs_failed` on Linux and never `statfs_failed` elsewhere |
| RustNif.StatFs | native/diskspace/src/lib.rs:152-157 | a failed intake gives `invalid_path` without detail; `wrong_arity` and `alloc_failed` never occur; each platform's reasons stay within its subset |
| RustNif.IntakePrecedesNativeCalls | native/diskspace/src/lib.rs:154-157 | when intake fails, the outcome is `invalid_path` whatever the operating system would reply |
| RustNif.UnixNotDirectory | native/diskspace/src/lib.rs:219-226 | a failed `metadata` gives `not_directory` with `raw_os_error`, or 0 when there is none; a non-directory gives bare `not_directory` |
| RustNif.LinuxStatfsOnly | native/diskspace/src/lib.rs:228-251 | on Linux only `statfs` is asked: counts times its block size, or `statfs_failed`; `statvfs` is never consulted |
| RustNif.OtherUnixStatvfsOnly | native/diskspace/src/lib.rs:253-276 | elsewhere on Unix only `statvfs` is asked: counts times `f_frsize`, or `statvfs_failed`; `statfs` is never consulted |
| RustNif.WindowsOutcomes | native/diskspace/src/lib.rs:159-215 | non-RFC 3629 paths fail conversion; every other path is queried under its rewritten form, which starts with `\\?\` |
| Agreement.IntakesAgreeOnPlainPaths | c_src/disk_space.c:144-158 | for a non-empty NUL-free UTF-8 binary both intakes accept, and the C string reads back as the Rust bytes |
| Agreement.IntakesDisagree | native/diskspace/src/lib.rs:143-149 | non-UTF-8 binaries pass only the Rust intake; binaries with an interior NUL pass only the C intake; a list both bindings read as the empty text passes only the Rust intake |
| Agreement.LongCharListsDisagree | c_src/disk_space.c:166-174 | a list whose text takes 256 or more NUL-free bytes does not fit the C buffer and is refused there, while the Rust intake accepts it whenever rustler's decoder reads the list as that text |
| Agreement.OtherPosixAgree | native/diskspace/src/lib.rs:253-276 | off Linux and Windows, for a non-empty, NUL-free, UTF-8 binary with every allocation succeeding, both NIFs give the same reason, code and byte counts when `metadata` agrees with `stat` |
| Agreement.LinuxChainsDiffer | native/diskspace/src/lib.rs:228-240 | on Linux a `statfs` failure after a successful `statvfs` is success for the C NIF and `statfs_failed` for the Rust NIF |
| Agreement.WindowsQueriesAgreeOffUnc | native/diskspace/src/lib.rs:166-178 | for a non-UNC RFC 3629 path and a converter that yields its UTF-16 units, both NIFs query the same wide path |
| Agreement.WindowsQueriesDifferOnUnc | native/diskspace/src/lib.rs:166-168 | for a UNC path the C NIF queries `\\?\` plus the whole path, the Rust NIF `\\?\UNC` plus its tail, and the two differ |
| Agreement.WindowsDiskFailureCodesDiffer | native/diskspace/src/lib.rs:201-202 | for every non-zero Win32 code below 0x80000000, the Rust code reports a different number than `GetLastError` |

## Findings

| source | as written | input that shows it | evidently intended | confidence | as-written member | corrected member |
|---|---|---|---|---|---|---|
| c_src/disk_space.c:144-158 | a binary is refused only when it is empty or invalid UTF-8, so one whose first byte is NUL passes and every system call receives the empty C string | `<<0>>` on POSIX: `stat("")` fails with ENOENT and the reply is `{:error, :not_directory, %{errno: 2, ...}}` | `invalid_path`, as for the empty binary: the comment above the function promises NULL for empty input | medium, not executed | CNif.LeadingNulReachesStat | CNif.IntendedRejectsEmptyCString |

`CNif.StatFs` stays the model of the code as written. `CNif.IntendedStatFs`
uses the corrected intake `CNif.IntendedPathFromTerm`. It is proved to
answer as `CNif.StatFs` does on every input whose C string is not empty.
All comparisons in `Agreement` are about inputs of that kind.

## Left out

- Humanizer (unit ladder and formatting): its source is not part of this model.
- The system calls (`stat`, `statvfs`, `statfs`, `std::fs::metadata`, `GetFileAttributesW`, `GetDiskFreeSpaceExW`) are oracle fields of `Host.Os`. Their behaviour is defined by the operating system.
- Message texts (`strerror_r`, `FormatMessageW` with its `WideCharToMultiByte` fallbacks, `io::Error`'s display) are opaque oracle strings. The buffer sizing and copying around them is memory plumbing.
- RustNif.WinapiError: the `.trim()` of the system message is not modelled, because message text is opaque.
- NIF term and map construction, atoms, `load`, `ERL_NIF_INIT` and `rustler::init!` are binding-layer plumbing. In the C NIF, a failed result map or message buffer is one allocation flag, `Heap.resultTerm`. In the Rust NIF a failed `map_put` raises through `?` and is not modelled.
- What each binding reads from a list is an input of the model (`PathTerm.CharList`): `cText` for `enif_get_string`, `rustText` for rustler's `String` decoder. erl_nif and rustler are not part of this model. `CNif.GetString` follows the documented return convention of `enif_get_string`: the byte count with the terminator, minus the size when the text does not fit, and 0 for a term that is not a string. rustler's `String` decoder reads binaries. If it refuses every list, `rustText` is None for all of them and every list gets `invalid_path` from the Rust NIF.
- CNif.PathFromTerm: a text of exactly 255 bytes fills the first buffer and is read again into a second `enif_alloc(len)`. Both allocations share the one flag `Heap.pathBuffer`, so the case where only the second one fails is not modelled separately. It is one more way to the same NULL.
- The C code's UTF-8 to UTF-16 conversion, `MultiByteToWideChar`, is an oracle (`Host.Os.multiByteToWide`), and only its failure is modelled. The comparisons in `Agreement` assume only that it yields the UTF-16 units of the decoded text. The C code calls it twice on the same input. The oracle is deterministic, so the second call cannot fail differently. The Rust conversions, `CStr::to_str` and `WideCString::from_str`, are modelled as `Utf8.Decode` and `Utf16.WideCStringFromStr`.
- `Utf16.Narrow` is the reference inverse of `Utf16.Widen`. How it reads unpaired surrogates (as U+FFFD) plays no part in any property, because widened strings hold none.
- RustNif.HresultFromWin32: the `windows` crate is not part of this model. The conversion follows that crate's `HRESULT::from_win32`.
- Capacity.ScaleBlocks: products wrap modulo 2^64 as in C and in a Rust release build. A Rust debug build would panic on overflow, and that is not modelled.
- The signed `f_bsize` of `statfs` is taken as a u64 oracle field, so the effect of its `(uint64_t)` cast on a negative value is not modelled.
- Dirty-I/O scheduling is a runtime concern, not logic.

=== FILE: agreement.dfy ===
/** Where the C and the Rust NIF agree, and the inputs on which they part:
    intake (UTF-8 check against NUL check), the Linux fallback chain, and
    the code reported for a failed disk query on Windows. */
module Agreement {
  import opened Wrappers
  import opened Unsigned
  import opened Utf8
  import opened CStrings
  import opened Utf16
  import opened LongPath
  import opened Host
  import opened Capacity
  import CNif
  import RustNif

  const AMPLE := Heap(true, true, true, true)

  /** An outcome with its message texts removed: reason, native code and
      byte counts only. The two NIFs take their texts from different
      sources (`strerror_r` against `io::Error`'s display). */
  function Shape(r: Outcome): (s: Outcome)
    ensures s.Ok? <==> r.Ok?
    ensures r.Ok? ==> s == r
    ensures r.Error? ==> s.reason == r.reason && s.detail.Some? == r.detail.Some?
    ensures r.Error? && r.detail.Some? ==> s.detail.value.code == r.detail.value.code
  {
    match r
    case Ok(_) => r
    case Error(reason, None) => r
    case Error(reason, Some(d)) => Error(reason, Some(Detail(d.code, "")))
  }

  /** For a non-empty UTF-8 binary without NUL both intakes accept, and the
      C string the C code builds reads back as the Rust code's bytes. */
  lemma IntakesAgreeOnPlainPaths(b: Bytes)
    requires |b| > 0 && WellFormed(b) && NoNul(b)
    ensures CNif.PathFromTerm(Binary(b), true) == Some(b + [0])
    ensures RustNif.PathFromTerm(Binary(b)) == Some(b)
    ensures CStr(CNif.PathFromTerm(Binary(b), true).value) == RustNif.PathFromTerm(Binary(b)).value
  {
    CStrOfTerminated(b, []);
    assert b + [0] + [] == b + [0];
  }

  /** The intakes differ: a binary that is not UTF-8 passes only the Rust
      code, a binary with a NUL inside passes only the C code, and a list
      that both bindings read as the empty text passes only the Rust code. */
  lemma IntakesDisagree()
    ensures CNif.PathFromTerm(Binary([0xFF]), true).None?
    ensures RustNif.PathFromTerm(Binary([0xFF])) == Some([0xFF])
    ensures CNif.PathFromTerm(Binary([0x61, 0x00, 0x62]), true).Some?
    ensures RustNif.PathFromTerm(Binary([0x61, 0x00, 0x62])).None?
    ensures CNif.PathFromTerm(CharList(Some([]), Some([])), true).None?
    ensures RustNif.PathFromTerm(CharList(Some([]), Some([]))) == Some([])
  {
    RejectedForms([0xFF]);
    var nul: seq<byte> := [0x61, 0x00, 0x62];
    AsciiIsWellFormed(nul);
    assert !NoNul(nul) by { assert nul[1] == 0; }
  }

  /** A list whose text takes 256 bytes or more does not fit the C code's
      buffer and is refused there, while the Rust code accepts it whenever
      rustler's decoder reads the list as that text. */
  lemma LongCharListsDisagree(t: Bytes)
    requires |t| >= 256 && NoNul(t)
    ensures CNif.PathFromTerm(CharList(Some(t), Some(t)), true).None?
    ensures RustNif.PathFromTerm(CharList(Some(t), Some(t))) == Some(t)
  {
  }

  /** `metadata` reports what `stat` reports, with the errno as its raw OS
      error and the display text of that errno. */
  predicate MetadataMatchesStat(os: Os, b: Bytes) {
    match os.stat(b)
    case StatError(e) => os.metadata(b) == MetadataError(Some(e), os.ioErrorText(e))
    case StatInfo(d) => os.metadata(b) == MetadataInfo(d)
  }

  /** Off Linux and Windows, with every allocation succeeding, both NIFs
      return the same reason, native code and byte counts for a plain path. */
  lemma OtherPosixAgree(b: Bytes, os: Os)
    requires |b| > 0 && WellFormed(b) && NoNul(b)
    requires MetadataMatchesStat(os, b)
    ensures Shape(CNif.StatFs(OtherPosix, [Binary(b)], os, AMPLE)) == Shape(RustNif.StatFs(OtherPosix, Binary(b), os))
  {
    CNif.OsSeesBinary(b, AMPLE);
    match os.statvfs(b)
    case VfsInfo(blocks, bfree, bavail, _, frsize) =>
      SaturatingSubIsClampedDifference(WrappingMul(blocks, frsize), WrappingMul(bfree, frsize));
    case VfsError(_) =>
  }

  /** On Linux the chains differ: the C code asks `statvfs` first and only
      then `statfs`, the Rust code asks `statfs` alone. A `statfs` failure
      after a successful `statvfs` is a success for one and an error for
      the other. */
  lemma LinuxChainsDiffer(b: Bytes, os: Os)
    requires |b| > 0 && WellFormed(b) && NoNul(b)
    requires os.stat(b) == StatInfo(true) && os.metadata(b) == MetadataInfo(true)
    requires os.statvfs(b).VfsInfo? && os.statfs(b).FsError?
    ensures CNif.StatFs(Linux, [Binary(b)], os, AMPLE).Ok?
    ensures RustNif.StatFs(Linux, Binary(b), os).Error?
    ensures RustNif.StatFs(Linux, Binary(b), os).reason == StatfsFailed
  {
    CNif.OsSeesBinary(b, AMPLE);
  }

  /** On Windows a failed disk query reports `GetLastError` from the C code
      and the HRESULT wrapping it from the Rust code; the two differ for
      every non-zero Win32 code, e.g. path not found (3) becomes 0x80070003. */
  lemma WindowsDiskFailureCodesDiffer(code: u32)
    requires 0 < code < 0x8000_0000
    ensures RustNif.HresultFromWin32(code) != code
    ensures RustNif.HresultFromWin32(3) == 0x8007_0003
  {
  }

  /** On Windows, for an RFC 3629 path that is not UNC and a converter that
      yields the path's UTF-16 code units, both NIFs query the same wide
      path: the units of the Rust code's rewritten text. */
  lemma {:induction false} WindowsQueriesAgreeOffUnc(b: Bytes, os: Os)
    requires |b| > 0 && NoNul(b) && Rfc3629(b) && !IsUnc(Decode(b))
    requires os.multiByteToWide(b) == Some(Widen(Decode(b)))
    ensures var wide := Widen(RewriteLongPath(Decode(b)));
            && CNif.StatFs(Windows, [Binary(b)], os, AMPLE) == CNif.WindowsQueries(wide, os, AMPLE)
            && RustNif.StatFs(Windows, Binary(b), os) == RustNif.WindowsQueries(wide, os)
  {
    Rfc3629IsWellFormed(b);
    CNif.OsSeesBinary(b, AMPLE);
    var text := Decode(b);
    RewriteMatchesPrepareOffUnc(text);
    RustNif.WindowsQueriesRewrittenPath(b, os);
    var w := Widen(text);
    assert CNif.WindowsStatFs(b, os, AMPLE) == CNif.WindowsQueries(PrepareLongPath(w, |w| + 1).0, os, AMPLE);
    assert CNif.StatFs(Windows, [Binary(b)], os, AMPLE) == CNif.WindowsStatFs(b, os, AMPLE);
  }

  /** On a UNC path the queried paths part: the C code asks about
      `\\?\` followed by the whole path, the Rust code about `\\?\UNC`
      followed by the path without its leading `\\`. */
  lemma {:induction false} WindowsQueriesDifferOnUnc(b: Bytes, os: Os)
    requires |b| > 0 && NoNul(b) && Rfc3629(b) && IsUnc(Decode(b))
    requires os.multiByteToWide(b) == Some(Widen(Decode(b)))
    ensures var text := Decode(b);
            && CNif.StatFs(Windows, [Binary(b)], os, AMPLE) == CNif.WindowsQueries(WIDE_PREFIX + Widen(text), os, AMPLE)
            && RustNif.StatFs(Windows, Binary(b), os) == RustNif.WindowsQueries(Widen(UNC_PREFIX) + Widen(text[2..]), os)
            && WIDE_PREFIX + Widen(text) != Widen(UNC_PREFIX) + Widen(text[2..])
  {
    Rfc3629IsWellFormed(b);
    CNif.OsSeesBinary(b, AMPLE);
    var text := Decode(b);
    UncRewriteDiffersFromPrepare(text);
    RustNif.WindowsQueriesRewrittenPath(b, os);
    var w := Widen(text);
    assert CNif.WindowsStatFs(b, os, AMPLE) == CNif.WindowsQueries(PrepareLongPath(w, |w| + 1).0, os, AMPLE);
    assert CNif.StatFs(Windows, [Binary(b)], os, AMPLE) == CNif.WindowsStatFs(b, os, AMPLE);
  }
}

=== FILE: c_nif.dfy ===
/** The C NIF (`c_src/disk_space.c`): path intake, `prepare_long_path` and
    the decision logic of `stat_fs` on Windows, Linux and other POSIX
    systems. */
module CNif {
  import opened Wrappers
  import opened Unsigned
  import opened Utf8
  import opened CStrings
  import opened Utf16
  import opened LongPath
  import opened Host
  import opened Capacity

  /** `enif_get_string` into a buffer of `size` bytes: the count written
      with the terminator, minus `size` when the text and its terminator do
      not fit, 0 when the list is no convertible string or `size` is not
      positive. */
  function GetString(text: Option<Bytes>, size: int): int {
    if text.None? || size <= 0 then 0
    else if |text.value| + 1 <= size then |text.value| + 1
    else -size
  }

  /** `get_path_from_term`: the bytes followed by one NUL, or NULL. A
      binary is refused when empty, when `is_valid_utf8` rejects it or when
      the buffer cannot be had. A list is read into 256 bytes; a list that
      does not fit comes back negative and is refused, so only texts of 1
      to 255 bytes pass (one of 255 bytes fills the buffer exactly, is read
      a second time into a buffer of that size and passes). */
  function PathFromTerm(term: PathTerm, bufferAllocated: bool): (path: Option<Bytes>)
    ensures term.Binary? ==>
              (path.Some? <==> |term.bytes| > 0 && WellFormed(term.bytes) && bufferAllocated)
    ensures term.Binary? && path.Some? ==> path.value == term.bytes + [0]
    ensures term.CharList? ==>
              (path.Some? <==> term.cText.Some? && 0 < |term.cText.value| < 256 && bufferAllocated)
    ensures term.CharList? && path.Some? ==> path.value == term.cText.value + [0]
    ensures term.OtherTerm? ==> path.None?
    ensures path.Some? ==> |path.value| >= 2 && path.value[|path.value| - 1] == 0
  {
    match term
    case Binary(bytes) =>
      if |bytes| == 0 || !WellFormed(bytes) || !bufferAllocated then None
      else Some(bytes + [0])
    case CharList(text, _) =>
      if !bufferAllocated then None
      else
        var len := GetString(text, 256);
        if len < 0 then None
        else if len > 255 then
          if GetString(text, len) <= 0 then None else Some(text.value + [0])
        else if len <= 1 then None
        else Some(text.value + [0])
    case OtherTerm =>
      None
  }

  /** A native failure, `make_errno_error_tuple` and
      `make_winapi_error_tuple`: `{error, reason, %{errno, errstr}}`, or
      `{error, alloc_failed}` alone when the message copy or the detail map
      cannot be built. */
  function NativeError(reason: Reason, code: int, message: string, heap: Heap): (r: Outcome)
    ensures r.Error? && (r.detail.Some? <==> heap.resultTerm)
    ensures heap.resultTerm ==> r.reason == reason && r.detail.value == Detail(code, message)
    ensures !heap.resultTerm ==> r == Error(AllocFailed, None)
  {
    if heap.resultTerm then Error(reason, Some(Detail(code, message))) else Error(AllocFailed, None)
  }

  /** `winapi_error_to_term`: the system message, or a fixed text when
      `FormatMessageW` finds none. */
  function WinapiMessage(os: Os, code: u32): (message: string)
    ensures os.formatMessage(code).None? ==> message == "Unknown WinAPI error"
    ensures os.formatMessage(code).Some? ==> message == os.formatMessage(code).value
  {
    os.formatMessage(code).GetOr("Unknown WinAPI error")
  }

  /** The success map, with `used` clamped at 0. */
  function Success(available: u64, free: u64, total: u64, heap: Heap): (r: Outcome)
    ensures r.Ok? <==> heap.resultTerm
    ensures r.Ok? ==> Consistent(r.stats)
    ensures r.Ok? ==> r.stats.available == available && r.stats.free == free && r.stats.total == total
    ensures r.Error? ==> r == Error(AllocFailed, None)
  {
    if heap.resultTerm then Ok(Stats(available, free, total, ClampedDifference(total, free)))
    else Error(AllocFailed, None)
  }

  /** The Windows branch: the path converted to UTF-16 and given the
      long-path prefix, then the queries. */
  function WindowsStatFs(path: Bytes, os: Os, heap: Heap): (r: Outcome)
    ensures WellShaped(r)
    ensures r.Error? ==> r.reason in {AllocFailed, PathConversionFailed, NotDirectory, WinapiFailed}
  {
    match os.multiByteToWide(path)
    case None => Error(PathConversionFailed, None)
    case Some(wpath) =>
      if !heap.wideBuffer || !heap.longPathBuffer then Error(AllocFailed, None)
      else WindowsQueries(PrepareLongPath(wpath, |wpath| + 1).0, os, heap)
  }

  /** `GetFileAttributesW` and `GetDiskFreeSpaceExW` on the prefixed path. */
  function WindowsQueries(longPath: WString, os: Os, heap: Heap): (r: Outcome)
    ensures WellShaped(r)
    ensures r.Error? ==> r.reason in {AllocFailed, NotDirectory, WinapiFailed}
  {
    var attr := os.fileAttributes(longPath);
    if attr.attributes == INVALID_FILE_ATTRIBUTES then
      NativeError(NotDirectory, attr.lastError, WinapiMessage(os, attr.lastError), heap)
    else if attr.attributes & FILE_ATTRIBUTE_DIRECTORY == 0 then
      Error(NotDirectory, None)
    else
      match os.diskFreeSpace(longPath)
      case DiskFreeError(err) => NativeError(WinapiFailed, err, WinapiMessage(os, err), heap)
      case DiskFreeInfo(available, total, free) => Success(available, free, total, heap)
  }

  /** The POSIX branch: `stat`, then `statvfs`, then on Linux only `statfs`. */
  function PosixStatFs(linux: bool, path: Bytes, os: Os, heap: Heap): (r: Outcome)
    ensures WellShaped(r)
    ensures r.Error? ==> r.reason in {AllocFailed, NotDirectory, StatvfsFailed, StatfsFailed}
    ensures r.Error? && linux ==> r.reason != StatvfsFailed
    ensures r.Error? && !linux ==> r.reason != StatfsFailed
  {
    match os.stat(path)
    case StatError(err) => NativeError(NotDirectory, err, os.strerror(err), heap)
    case StatInfo(isDir) =>
      if !isDir then Error(NotDirectory, None)
      else
        match os.statvfs(path)
        case VfsInfo(blocks, bfree, bavail, _, frsize) =>
          var (total, free, available) := ScaleBlocks(blocks, bfree, bavail, frsize);
          Success(available, free, total, heap)
        case VfsError(err) =>
          if linux then
            match os.statfs(path)
            case FsError(err') => NativeError(StatfsFailed, err', os.strerror(err'), heap)
            case FsInfo(blocks, bfree, bavail, bsize) =>
              var (total, free, available) := ScaleBlocks(blocks, bfree, bavail, bsize);
              Success(available, free, total, heap)
          else
            NativeError(StatvfsFailed, err, os.strerror(err), heap)
  }

  /** The reasons `stat_fs` can return on each platform. */
  function Reasons(platform: Platform): set<Reason> {
    match platform
    case Windows => {WrongArity, InvalidPath, AllocFailed, PathConversionFailed, NotDirectory, WinapiFailed}
    case Linux => {WrongArity, InvalidPath, AllocFailed, NotDirectory, StatfsFailed}
    case OtherPosix => {WrongArity, InvalidPath, AllocFailed, NotDirectory, StatvfsFailed}
  }

  /** The native part of `stat_fs`, once the path buffer is built. Every
      native call receives the C string of the buffer, that is, the bytes
      before its first NUL. */
  function StatPath(platform: Platform, path: Bytes, os: Os, heap: Heap): (r: Outcome)
    ensures WellShaped(r)
    ensures r.Error? ==> r.reason in Reasons(platform) - {WrongArity, InvalidPath}
  {
    if platform == Windows then WindowsStatFs(CStr(path), os, heap)
    else PosixStatFs(platform == Linux, CStr(path), os, heap)
  }

  /** `stat_fs(argc, argv)`. */
  function StatFs(platform: Platform, args: seq<PathTerm>, os: Os, heap: Heap): (r: Outcome)
    ensures |args| != 1 ==> r == Error(WrongArity, None)
    ensures |args| == 1 && PathFromTerm(args[0], heap.pathBuffer).None? ==> r == Error(InvalidPath, None)
    ensures WellShaped(r)
    ensures r.Error? ==> r.reason in Reasons(platform)
  {
    if |args| != 1 then Error(WrongArity, None)
    else
      match PathFromTerm(args[0], heap.pathBuffer)
      case None => Error(InvalidPath, None)
      case Some(path) => StatPath(platform, path, os, heap)
  }

  /** A binary whose first byte is NUL is not empty and is valid UTF-8, so
      the intake accepts it, and every native call then receives the empty
      C string: on POSIX `stat("")`, whose failure (ENOENT, 2) comes back as
      `not_directory`, where the empty binary gets `invalid_path`. */
  lemma LeadingNulReachesStat(platform: Platform, tail: Bytes, os: Os, heap: Heap)
    requires platform != Windows && WellFormed(tail) && heap.pathBuffer && heap.resultTerm
    ensures PathFromTerm(Binary([0] + tail), true).Some?
    ensures StatFs(platform, [Binary([0] + tail)], os, heap) == PosixStatFs(platform == Linux, [], os, heap)
    ensures os.stat([]) == StatError(2) ==>
              StatFs(platform, [Binary([0] + tail)], os, heap) == Error(NotDirectory, Some(Detail(2, os.strerror(2))))
    ensures StatFs(platform, [Binary([])], os, heap) == Error(InvalidPath, None)
  {
    NulJoinWellFormed([], tail);
    assert [] + [0] + tail == [0] + tail;
    assert CStr([0] + tail + [0]) == [];
  }

  /** The intake as its comment describes it: NULL also for a path whose C
      string is empty, as the empty binary already gets. */
  function IntendedPathFromTerm(term: PathTerm, bufferAllocated: bool): (path: Option<Bytes>)
    ensures path.Some? ==> |CStr(path.value)| > 0
    ensures path.Some? ==> path == PathFromTerm(term, bufferAllocated)
    ensures PathFromTerm(term, bufferAllocated).Some? && |CStr(PathFromTerm(term, bufferAllocated).value)| > 0 ==>
              path == PathFromTerm(term, bufferAllocated)
  {
    match PathFromTerm(term, bufferAllocated)
    case None => None
    case Some(p) => if p[0] == 0 then None else Some(p)
  }

  /** `stat_fs` with the corrected intake. */
  function IntendedStatFs(platform: Platform, args: seq<PathTerm>, os: Os, heap: Heap): (r: Outcome)
    ensures |args| != 1 ==> r == Error(WrongArity, None)
    ensures |args| == 1 && IntendedPathFromTerm(args[0], heap.pathBuffer).None? ==> r == Error(InvalidPath, None)
    ensures WellShaped(r)
    ensures r.Error? ==> r.reason in Reasons(platform)
  {
    if |args| != 1 then Error(WrongArity, None)
    else
      match IntendedPathFromTerm(args[0], heap.pathBuffer)
      case None => Error(InvalidPath, None)
      case Some(path) => StatPath(platform, path, os, heap)
  }

  /** With the corrected intake a path whose C string is empty gets
      `invalid_path`, as the empty binary does, before any native call; on
      every input whose C string is not empty it answers as `stat_fs` does. */
  lemma IntendedRejectsEmptyCString(platform: Platform, term: PathTerm, os: Os, heap: Heap)
    ensures var p := PathFromTerm(term, heap.pathBuffer);
            p.Some? && |CStr(p.value)| == 0 ==> IntendedStatFs(platform, [term], os, heap) == Error(InvalidPath, None)
    ensures var p := PathFromTerm(term, heap.pathBuffer);
            p.None? || |CStr(p.value)| > 0 ==> IntendedStatFs(platform, [term], os, heap) == StatFs(platform, [term], os, heap)
    ensures forall tail: Bytes :: IntendedStatFs(platform, [Binary([0] + tail)], os, heap) == Error(InvalidPath, None)
  {
    forall tail: Bytes
      ensures IntendedStatFs(platform, [Binary([0] + tail)], os, heap) == Error(InvalidPath, None)
    {
      var p := PathFromTerm(Binary([0] + tail), heap.pathBuffer);
      if p.Some? {
        assert p.value[0] == 0;
      }
    }
  }

  /** A binary path with no NUL that the intake accepts: the native calls
      see exactly its bytes. */
  lemma OsSeesBinary(b: Bytes, heap: Heap)
    requires |b| > 0 && WellFormed(b) && NoNul(b) && heap.pathBuffer
    ensures PathFromTerm(Binary(b), heap.pathBuffer) == Some(b + [0])
    ensures CStr(b + [0]) == b
  {
    CStrOfTerminated(b, []);
    assert b + [0] + [] == b + [0];
  }

  /** Arity and path intake are decided before any native call: when either
      fails, no reply of the operating system changes the outcome. */
  lemma IntakePrecedesNativeCalls(platform: Platform, args: seq<PathTerm>, os: Os, other: Os, heap: Heap)
    requires |args| != 1 || PathFromTerm(args[0], heap.pathBuffer).None?
    ensures StatFs(platform, args, os, heap) == StatFs(platform, args, other, heap)
    ensures StatFs(platform, args, os, heap).detail.None?
  {
  }

  /** A binary with a NUL inside is cut at the NUL: when `b` is non-empty
      and NUL-free and the whole binary is valid UTF-8, `stat_fs` on
      `b ++ <<0>> ++ tail` answers as on `b` alone. */
  lemma InteriorNulTruncates(platform: Platform, b: Bytes, tail: Bytes, os: Os, heap: Heap)
    requires |b| > 0 && WellFormed(b) && NoNul(b) && WellFormed(tail)
    ensures StatFs(platform, [Binary(b + [0] + tail)], os, heap) == StatFs(platform, [Binary(b)], os, heap)
  {
    var long := b + [0] + tail;
    NulJoinWellFormed(b, tail);
    if heap.pathBuffer {
      assert PathFromTerm(Binary(long), true) == Some(long + [0]);
      assert PathFromTerm(Binary(b), true) == Some(b + [0]);
      assert long + [0] == b + [0] + (tail + [0]);
      CStrOfTerminated(b, tail + [0]);
      CStrOfTerminated(b, []);
      assert b + [0] + [] == b + [0];
      assert CStr(long + [0]) == CStr(b + [0]);
    }
  }

  /** Two well-formed sequences joined by a NUL are well formed. */
  lemma NulJoinWellFormed(b: Bytes, tail: Bytes)
    requires WellFormed(b) && WellFormed(tail)
    ensures WellFormed(b + [0] + tail)
  {
    var t := [0] + tail;
    assert Character(t[..1], false);
    assert t[1..] == tail;
    assert WellFormed(t);
    WellFormedPrefix(b, t, false);
    assert b + [0] + tail == b + t;
  }

  /** When `stat` fails the reason is `not_directory` with its errno; an
      existing non-directory gives `not_directory` without detail. */
  lemma PosixNotDirectory(platform: Platform, b: Bytes, os: Os, heap: Heap)
    requires platform != Windows
    requires |b| > 0 && WellFormed(b) && NoNul(b) && heap.pathBuffer && heap.resultTerm
    ensures os.stat(b).StatError? ==>
              StatFs(platform, [Binary(b)], os, heap)
                == Error(NotDirectory, Some(Detail(os.stat(b).errno, os.strerror(os.stat(b).errno))))
    ensures os.stat(b) == StatInfo(false) ==>
              StatFs(platform, [Binary(b)], os, heap) == Error(NotDirectory, None)
  {
    OsSeesBinary(b, heap);
  }

  /** With a directory and a successful `statvfs`, every byte field is its
      block count times `f_frsize`, and `statfs` is not consulted. */
  lemma PosixStatvfsBytes(platform: Platform, b: Bytes, os: Os, other: Bytes -> StatfsReply, heap: Heap)
    requires platform != Windows
    requires |b| > 0 && WellFormed(b) && NoNul(b) && heap.pathBuffer && heap.resultTerm
    requires os.stat(b) == StatInfo(true) && os.statvfs(b).VfsInfo?
    ensures var v := os.statvfs(b);
            StatFs(platform, [Binary(b)], os, heap)
              == Ok(Stats(WrappingMul(v.bavail, v.frsize), WrappingMul(v.bfree, v.frsize),
                          WrappingMul(v.blocks, v.frsize),
                          ClampedDifference(WrappingMul(v.blocks, v.frsize), WrappingMul(v.bfree, v.frsize))))
    ensures StatFs(platform, [Binary(b)], os.(statfs := other), heap) == StatFs(platform, [Binary(b)], os, heap)
  {
    OsSeesBinary(b, heap);
  }

  /** On Linux a failed `statvfs` falls back to `statfs`: its counts times
      `f_bsize`, or `statfs_failed` with the errno of `statfs`. */
  lemma LinuxStatfsFallback(b: Bytes, os: Os, heap: Heap)
    requires |b| > 0 && WellFormed(b) && NoNul(b) && heap.pathBuffer && heap.resultTerm
    requires os.stat(b) == StatInfo(true) && os.statvfs(b).VfsError?
    ensures var f := os.statfs(b);
            f.FsInfo? ==>
              StatFs(Linux, [Binary(b)], os, heap)
                == Ok(Stats(WrappingMul(f.bavail, f.bsize), WrappingMul(f.bfree, f.bsize),
                            WrappingMul(f.blocks, f.bsize),
                            ClampedDifference(WrappingMul(f.blocks, f.bsize), WrappingMul(f.bfree, f.bsize))))
    ensures var f := os.statfs(b);
            f.FsError? ==>
              StatFs(Linux, [Binary(b)], os, heap) == Error(StatfsFailed, Some(Detail(f.errno, os.strerror(f.errno))))
  {
    OsSeesBinary(b, heap);
  }

  /** Elsewhere on POSIX a failed `statvfs` is final: `statvfs_failed` with
      its errno, and `statfs` is never called. */
  lemma OtherPosixStatvfsFailure(b: Bytes, os: Os, other: Bytes -> StatfsReply, heap: Heap)
    requires |b| > 0 && WellFormed(b) && NoNul(b) && heap.pathBuffer && heap.resultTerm
    requires os.stat(b) == StatInfo(true) && os.statvfs(b).VfsError?
    ensures var e := os.statvfs(b).errno;
            StatFs(OtherPosix, [Binary(b)], os, heap) == Error(StatvfsFailed, Some(Detail(e, os.strerror(e))))
    ensures StatFs(OtherPosix, [Binary(b)], os.(statfs := other), heap) == StatFs(OtherPosix, [Binary(b)], os, heap)
  {
    OsSeesBinary(b, heap);
  }

  /** On Windows the attribute and disk queries receive the prefixed wide
      path; an attribute failure is `not_directory` with the Win32 code, a
      non-directory is `not_directory` alone, a disk query failure is
      `winapi_failed`, and success reports the four byte counts. */
  lemma WindowsOutcomes(b: Bytes, wpath: WString, os: Os, heap: Heap)
    requires |b| > 0 && WellFormed(b) && NoNul(b)
    requires heap.pathBuffer && heap.wideBuffer && heap.longPathBuffer && heap.resultTerm
    requires os.multiByteToWide(b) == Some(wpath)
    ensures var longPath := PrepareLongPath(wpath, |wpath| + 1).0;
            var attr := os.fileAttributes(longPath);
            var r := StatFs(Windows, [Binary(b)], os, heap);
            && StartsWith(longPath, WIDE_PREFIX)
            && (attr.attributes == INVALID_FILE_ATTRIBUTES ==>
                  r == Error(NotDirectory, Some(Detail(attr.lastError, WinapiMessage(os, attr.lastError)))))
            && (attr.attributes != INVALID_FILE_ATTRIBUTES && attr.attributes & FILE_ATTRIBUTE_DIRECTORY == 0 ==>
                  r == Error(NotDirectory, None))
            && (attr.attributes != INVALID_FILE_ATTRIBUTES && attr.attributes & FILE_ATTRIBUTE_DIRECTORY != 0 ==>
                  match os.diskFreeSpace(longPath)
                  case DiskFreeError(e) => r == Error(WinapiFailed, Some(Detail(e, WinapiMessage(os, e))))
                  case DiskFreeInfo(a, t, f) => r == Ok(Stats(a, f, t, ClampedDifference(t, f))))
  {
    OsSeesBinary(b, heap);
  }
}

=== FILE: capacity.dfy ===
/** The result of `stat_fs`: `{ok, %{available, free, total, used}}`, or
    `{error, Reason}` / `{error, Reason, %{errno, errstr}}` with a reason from
    a closed set. */
module Capacity {
  import opened Wrappers
  import opened Unsigned

  datatype Reason =
    | WrongArity
    | InvalidPath
    | AllocFailed
    | PathConversionFailed
    | NotDirectory
    | StatvfsFailed
    | StatfsFailed
    | WinapiFailed

  /** The `%{errno, errstr}` map: the native code and its message. */
  datatype Detail = Detail(code: int, message: string)

  datatype Stats = Stats(available: u64, free: u64, total: u64, used: u64)

  datatype Outcome = Ok(stats: Stats) | Error(reason: Reason, detail: Option<Detail>)

  /** `used` never exceeds `total`; it is `total - free` when that is not
      negative and 0 otherwise. */
  predicate Consistent(s: Stats) {
    && s.used <= s.total
    && (s.free <= s.total ==> s.used + s.free == s.total)
    && (s.total < s.free ==> s.used == 0)
  }

  /** The reasons that may carry a `%{errno, errstr}` detail. */
  const NATIVE_FAILURES: set<Reason> := {NotDirectory, StatvfsFailed, StatfsFailed, WinapiFailed}

  /** An outcome that carries detail only for native failures. */
  predicate WellShaped(r: Outcome) {
    && (r.Ok? ==> Consistent(r.stats))
    && (r.Error? && r.detail.Some? ==> r.reason in NATIVE_FAILURES)
  }

  /** Byte counts from block counts: each count times the same unit size,
      as `uint64_t` products. */
  function ScaleBlocks(blocks: u64, bfree: u64, bavail: u64, unit: u64): (r: (u64, u64, u64))
    ensures blocks * unit < U64_MODULUS ==> r.0 == blocks * unit
    ensures bfree * unit < U64_MODULUS ==> r.1 == bfree * unit
    ensures bavail * unit < U64_MODULUS ==> r.2 == bavail * unit
  {
    (WrappingMul(blocks, unit), WrappingMul(bfree, unit), WrappingMul(bavail, unit))
  }

  /** Without overflow, scaling keeps the order of the counts: no more
      bytes free than in total when no more blocks are free than exist. */
  lemma ScaleBlocksMonotone(blocks: u64, bfree: u64, bavail: u64, unit: u64)
    requires blocks * unit < U64_MODULUS
    requires bavail <= bfree <= blocks
    ensures var (total, free, avail) := ScaleBlocks(blocks, bfree, bavail, unit);
            avail <= free <= total
  {
    assert bavail * unit <= bfree * unit <= blocks * unit by {
      MulMonotone(bavail, bfree, unit);
      MulMonotone(bfree, blocks, unit);
    }
  }

  lemma MulMonotone(a: nat, b: nat, c: nat)
    requires a <= b
    ensures a * c <= b * c
  {
  }
}

=== FILE: cstrings.dfy ===
/** NUL-terminated byte strings. Every native call in the C NIF receives a
    `char*`, and therefore sees only the bytes before the first NUL; the
    Rust NIF's `CString::new` refuses bytes that contain a NUL at all. */
module CStrings {
  import opened Utf8

  predicate NoNul(s: seq<byte>) {
    forall k :: 0 <= k < |s| ==> s[k] != 0
  }

  /** The string a `char*` to `buf` denotes: the bytes before the first NUL. */
  function CStr(buf: seq<byte>): (s: seq<byte>)
    ensures |s| <= |buf| && s == buf[..|s|]
    ensures NoNul(s)
    ensures |s| < |buf| ==> buf[|s|] == 0
    decreases |buf|
  {
    if |buf| == 0 || buf[0] == 0 then [] else [buf[0]] + CStr(buf[1..])
  }

  /** A NUL-free string followed by a terminator, and anything after it,
      reads back as exactly that string. */
  lemma {:induction false} CStrOfTerminated(b: seq<byte>, tail: seq<byte>)
    requires NoNul(b)
    ensures CStr(b + [0] + tail) == b
    decreases |b|
  {
    var buf := b + [0] + tail;
    if |b| > 0 {
      assert buf[0] == b[0] != 0;
      assert buf[1..] == b[1..] + [0] + tail;
      CStrOfTerminated(b[1..], tail);
      assert b == [b[0]] + b[1..];
    }
  }
}

=== FILE: host.dfy ===
/** What the NIF receives from the Erlang runtime and what it asks of the
    operating system. System calls are oracles: function-valued fields of
    `Os` taking exactly the path the code hands them, so their replies are
    arbitrary but depend on nothing else. */
module Host {
  import opened Wrappers
  import opened Unsigned
  import opened Utf8
  import opened Utf16

  type Bytes = seq<byte>

  /** Which branch of the platform conditionals was compiled in. */
  datatype Platform = Windows | Linux | OtherPosix

  /** The path argument. A list is read differently by each runtime
      binding, so it carries both readings: `cText` is the UTF-8 text that
      `enif_get_string(..., ERL_NIF_UTF8)` writes before its terminator
      (None when the list is not a string it can convert), `rustText` the
      bytes of the `String` that rustler's decoder yields (None when it
      refuses the term). `OtherTerm` is any term that is neither a binary
      nor a list. */
  datatype PathTerm =
    | Binary(bytes: Bytes)
    | CharList(cText: Option<Bytes>, rustText: Option<Bytes>)
    | OtherTerm

  /** `stat(2)`: the errno, or whether `S_ISDIR(st_mode)` holds. */
  datatype StatReply = StatError(errno: int) | StatInfo(isDir: bool)

  /** `std::fs::metadata`: `raw_os_error()` and `to_string()` of the
      `io::Error`, or `is_dir()`. */
  datatype MetadataReply = MetadataError(rawOsError: Option<int>, text: string) | MetadataInfo(isDir: bool)

  /** `statvfs(3)`: the block counts, `f_bsize` and `f_frsize`. */
  datatype StatvfsReply =
    | VfsError(errno: int)
    | VfsInfo(blocks: u64, bfree: u64, bavail: u64, bsize: u64, frsize: u64)

  /** `statfs(2)`: the block counts and `f_bsize`. */
  datatype StatfsReply =
    | FsError(errno: int)
    | FsInfo(blocks: u64, bfree: u64, bavail: u64, bsize: u64)

  /** `GetFileAttributesW` and the `GetLastError` that follows it. */
  datatype AttributesReply = AttributesReply(attributes: bv32, lastError: u32)

  /** `GetDiskFreeSpaceExW`: `GetLastError` on failure, else the bytes
      available to the caller, the total and the free bytes. */
  datatype DiskFreeReply =
    | DiskFreeError(lastError: u32)
    | DiskFreeInfo(available: u64, total: u64, free: u64)

  const INVALID_FILE_ATTRIBUTES: bv32 := 0xFFFF_FFFF
  const FILE_ATTRIBUTE_DIRECTORY: bv32 := 0x10

  datatype Os = Os(
    stat: Bytes -> StatReply,
    metadata: Bytes -> MetadataReply,
    statvfs: Bytes -> StatvfsReply,
    statfs: Bytes -> StatfsReply,
    /** `strerror_r`, the C code's message for an errno. */
    strerror: int -> string,
    /** `io::Error::from_raw_os_error(e).to_string()`, the Rust code's. */
    ioErrorText: int -> string,
    /** `MultiByteToWideChar(CP_UTF8, ...)`; None when it returns 0. */
    multiByteToWide: Bytes -> Option<WString>,
    fileAttributes: WString -> AttributesReply,
    diskFreeSpace: WString -> DiskFreeReply,
    /** `FormatMessageW`; None when it returns 0. */
    formatMessage: u32 -> Option<string>)

  /** Which allocations of the C NIF succeed: the path buffer of
      `get_path_from_term`, the wide path, the prefixed wide path, and the
      result term (error message copy and `enif_make_map_from_arrays`). */
  datatype Heap = Heap(pathBuffer: bool, wideBuffer: bool, longPathBuffer: bool, resultTerm: bool)
}

=== FILE: long_path.dfy ===
/** The Windows long-path prefix `\\?\`, as the C NIF's `prepare_long_path`
    and the Rust NIF's rewrite in `stat_fs` add it. The C code works on the
    UTF-16 code units of the converted path, the Rust code on the decoded
    `&str` before conversion. */
module LongPath {
  import opened Utf16

  /** `\\?\` as UTF-16 code units. */
  const WIDE_PREFIX: WString := [0x5C, 0x5C, 0x3F, 0x5C]

  /** `\\?\` and `\\?\UNC` as Rust string literals. */
  const PREFIX: string := "\\\\?\\"
  const UNC_PREFIX: string := "\\\\?\\UNC"

  predicate StartsWith<T(==)>(s: seq<T>, prefix: seq<T>) {
    |prefix| <= |s| && s[..|prefix|] == prefix
  }

  /** `prepare_long_path`: the path (without its terminator) and its length
      counted with the terminator, as returned through `*wpath_len`. */
  function PrepareLongPath(wpath: WString, wpathLen: int): (r: (WString, int))
    ensures StartsWith(r.0, WIDE_PREFIX)
    ensures !StartsWith(wpath, WIDE_PREFIX) ==>
              r.0[|WIDE_PREFIX|..] == wpath && r.1 == wpathLen + |WIDE_PREFIX|
    ensures StartsWith(wpath, WIDE_PREFIX) ==> r == (wpath, wpathLen)
    ensures wpathLen == |wpath| + 1 ==> r.1 == |r.0| + 1
  {
    if !StartsWith(wpath, WIDE_PREFIX) then
      (WIDE_PREFIX + wpath, wpathLen + |WIDE_PREFIX|)
    else
      (wpath, wpathLen)
  }

  /** Applying `prepare_long_path` to its own result changes nothing. */
  lemma PrepareLongPathIdempotent(wpath: WString, wpathLen: int)
    ensures var (p, n) := PrepareLongPath(wpath, wpathLen);
            PrepareLongPath(p, n) == (p, n)
  {
  }

  /** A UNC path in the Rust NIF's sense: `\\` not followed by `?\`. */
  predicate IsUnc(path: string) {
    StartsWith(path, "\\\\") && !StartsWith(path, PREFIX)
  }

  /** The Rust NIF's rewrite: UNC paths become `\\?\UNC` followed by the path
      without its first two characters (no separator is put back), other
      unprefixed paths get `\\?\`, prefixed paths stay as they are. */
  function RewriteLongPath(path: string): (r: string)
    ensures StartsWith(r, PREFIX)
    ensures IsUnc(path) ==> StartsWith(r, UNC_PREFIX) && r[|UNC_PREFIX|..] == path[2..]
    ensures !IsUnc(path) && !StartsWith(path, PREFIX) ==> r[|PREFIX|..] == path
    ensures StartsWith(path, PREFIX) ==> r == path
  {
    if IsUnc(path) then UNC_PREFIX + path[2..]
    else if !StartsWith(path, PREFIX) then PREFIX + path
    else path
  }

  /** The rewrite brings in no NUL: the prefixes hold none and the rest
      is the path or its tail. */
  lemma {:induction false} RewriteKeepsNoNul(path: string)
    requires forall k :: 0 <= k < |path| ==> path[k] != '\0'
    ensures forall k :: 0 <= k < |RewriteLongPath(path)| ==> RewriteLongPath(path)[k] != '\0'
  {
    var r := RewriteLongPath(path);
    forall k | 0 <= k < |r|
      ensures r[k] != '\0'
    {
      if IsUnc(path) {
        if k >= |UNC_PREFIX| {
          assert r[k] == path[k - |UNC_PREFIX| + 2];
        }
      } else if !StartsWith(path, PREFIX) {
        if k >= |PREFIX| {
          assert r[k] == path[k - |PREFIX|];
        }
      }
    }
  }

  /** Rewriting a rewritten path changes nothing. */
  lemma RewriteLongPathIdempotent(path: string)
    ensures RewriteLongPath(RewriteLongPath(path)) == RewriteLongPath(path)
  {
    var r := RewriteLongPath(path);
    assert StartsWith(r, PREFIX);
  }

  /** A sequence starts with `[x] + a` when its head is `x` and its tail
      starts with `a`. */
  lemma StartsWithCons<T>(s: seq<T>, x: T, a: seq<T>)
    requires |s| > 0
    ensures StartsWith(s, [x] + a) <==> s[0] == x && StartsWith(s[1..], a)
  {
    if StartsWith(s, [x] + a) {
      assert s[1..][..|a|] == s[..|a| + 1][1..];
    }
    if s[0] == x && StartsWith(s[1..], a) {
      assert s[..|a| + 1] == [s[0]] + s[1..][..|a|];
    }
  }

  /** Below U+0080 a string and its code units start alike: `p` starts
      with the ASCII string `q` exactly when its units start with the units
      of `q`. A character from beyond U+FFFF begins with a surrogate, which
      no ASCII character matches. */
  lemma {:induction false} WidenStartsWith(p: string, q: string)
    requires forall k :: 0 <= k < |q| ==> q[k] as int < 0x80
    ensures StartsWith(Widen(p), Widen(q)) <==> StartsWith(p, q)
    decreases |q|
  {
    if |q| > 0 {
      var wq := Widen(q);
      assert wq == [q[0] as int] + Widen(q[1..]);
      if |p| == 0 {
        assert Widen(p) == [];
      } else {
        WidenStartsWith(p[1..], q[1..]);
        var wp := Widen(p);
        assert q == [q[0]] + q[1..];
        StartsWithCons(p, q[0], q[1..]);
        StartsWithCons(wp, q[0] as int, Widen(q[1..]));
        if p[0] as int < 0x1_0000 {
          assert wp == [p[0] as int] + Widen(p[1..]);
          assert wp[1..] == Widen(p[1..]);
        } else {
          assert wp[0] >= 0xD800;
        }
      }
    }
  }

  /** The Rust prefix literal widens to the C code's. */
  lemma WidenPrefix()
    ensures Widen(PREFIX) == WIDE_PREFIX
  {
    assert Widen(PREFIX[3..]) == [0x5C];
    assert Widen(PREFIX[2..]) == [0x3F, 0x5C];
    assert Widen(PREFIX[1..]) == [0x5C, 0x3F, 0x5C];
  }

  /** On paths that are not UNC the Rust rewrite and `prepare_long_path`
      produce the same code units: converting the rewritten string gives
      what the C code builds from the converted path, and its length with
      the terminator. */
  lemma {:induction false} RewriteMatchesPrepareOffUnc(path: string)
    requires !IsUnc(path)
    ensures var (w, n) := PrepareLongPath(Widen(path), |Widen(path)| + 1);
            Widen(RewriteLongPath(path)) == w && n == |w| + 1
  {
    WidenPrefix();
    WidenStartsWith(path, PREFIX);
    if !StartsWith(path, PREFIX) {
      WidenAppend(PREFIX, path);
    }
  }

  /** The Rust UNC prefix literal widens to the C code's prefix followed
      by `UNC`. */
  lemma WidenUncPrefix()
    ensures Widen(UNC_PREFIX) == WIDE_PREFIX + [0x55, 0x4E, 0x43]
  {
    WidenPrefix();
    assert UNC_PREFIX == PREFIX + "UNC";
    WidenAppend(PREFIX, "UNC");
    assert Widen("C") == [0x43];
    assert Widen("NC") == [0x4E, 0x43];
  }

  /** On UNC paths they part: the C code puts `\\?\` before the whole
      path, so its fifth unit is the path's leading backslash, where the
      Rust code has the `U` of `UNC`. */
  lemma {:induction false} UncRewriteDiffersFromPrepare(path: string)
    requires IsUnc(path)
    ensures PrepareLongPath(Widen(path), |Widen(path)| + 1).0 == WIDE_PREFIX + Widen(path)
    ensures Widen(RewriteLongPath(path)) == Widen(UNC_PREFIX) + Widen(path[2..])
    ensures Widen(RewriteLongPath(path)) != PrepareLongPath(Widen(path), |Widen(path)| + 1).0
  {
    WidenPrefix();
    WidenStartsWith(path, PREFIX);
    assert !StartsWith(Widen(path), WIDE_PREFIX);
    var c := WIDE_PREFIX + Widen(path);
    assert PrepareLongPath(Widen(path), |Widen(path)| + 1).0 == c;
    assert RewriteLongPath(path) == UNC_PREFIX + path[2..];
    WidenAppend(UNC_PREFIX, path[2..]);
    WidenUncPrefix();
    var r := Widen(UNC_PREFIX) + Widen(path[2..]);
    assert r[4] == 0x55;
    assert path[0] == '\\';
    assert Widen(path)[0] == 0x5C;
    assert c[4] == 0x5C;
  }

  /** `\\srv\share` becomes `\\?\UNCsrv\share`: the backslash that separates
      `UNC` from the server name in the documented form `\\?\UNC\srv\share`
      is not there. */
  lemma UncRewriteDropsSeparator()
    ensures RewriteLongPath("\\\\srv\\share") == "\\\\?\\UNCsrv\\share"
  {
    var path := "\\\\srv\\share";
    assert path[2] != PREFIX[2];
    assert IsUnc(path);
  }
}

=== FILE: rust_nif.dfy ===
/** The Rust NIF (`native/diskspace/src/lib.rs`): path intake, the
    long-path rewrite and the decision logic of `stat_fs` on Windows, Linux
    and other Unix systems. Arity is checked by the binding layer before
    the function runs, and allocation failures abort rather than return, so
    neither `wrong_arity` nor `alloc_failed` is ever produced here. */
module RustNif {
  import opened Wrappers
  import opened Unsigned
  import opened Utf8
  import opened CStrings
  import opened Utf16
  import opened LongPath
  import opened Host
  import opened Capacity

  /** `get_path_from_term`: the bytes of a non-empty binary, or of the
      `String` rustler decodes from any other term, when `CString::new`
      finds no NUL in them. An empty string passes; no UTF-8 check is made
      on binaries. */
  function PathFromTerm(term: PathTerm): (path: Option<Bytes>)
    ensures term.Binary? ==> (path.Some? <==> |term.bytes| > 0 && NoNul(term.bytes))
    ensures term.CharList? ==> (path.Some? <==> term.rustText.Some? && NoNul(term.rustText.value))
    ensures term.OtherTerm? ==> path.None?
    ensures path.Some? ==> NoNul(path.value)
    ensures path.Some? && term.Binary? ==> path.value == term.bytes
    ensures path.Some? && term.CharList? ==> path.value == term.rustText.value
  {
    match term
    case Binary(bytes) =>
      if |bytes| == 0 then None
      else CStringNew(bytes)
    case CharList(_, text) =>
      if text.None? then None else CStringNew(text.value)
    case OtherTerm =>
      None
  }

  /** `CString::new`: fails on a NUL anywhere in the bytes, else keeps
      them all, so the C string read back from its buffer is the input. */
  function CStringNew(bytes: Bytes): (r: Option<Bytes>)
    ensures r.Some? <==> NoNul(bytes)
    ensures r.Some? ==> r.value == bytes && CStr(r.value + [0]) == bytes
  {
    if NoNul(bytes) then
      CStrOfTerminated(bytes, []);
      assert bytes + [0] + [] == bytes + [0];
      Some(bytes)
    else None
  }

  /** `make_errno_error_tuple`: `raw_os_error()`, or 0 when there is none. */
  function ErrnoError(reason: Reason, rawOsError: Option<int>, text: string): (r: Outcome)
    ensures r.Error? && r.reason == reason && r.detail.Some?
    ensures r.detail.value.code == (if rawOsError.Some? then rawOsError.value else 0)
  {
    Error(reason, Some(Detail(rawOsError.GetOr(0), text)))
  }

  /** `make_winapi_error_tuple`: the message `FormatMessageW` finds, or a
      fixed text when it returns 0. Trimming of the system text is not
      modelled. */
  function WinapiError(reason: Reason, code: u32, os: Os): (r: Outcome)
    ensures r.Error? && r.reason == reason && r.detail.Some? && r.detail.value.code == code
    ensures os.formatMessage(code).None? ==> r.detail.value.message == "Unknown WinAPI error"
  {
    Error(reason, Some(Detail(code, os.formatMessage(code).GetOr("Unknown WinAPI error"))))
  }

  /** `HRESULT::from_win32` of the `windows` crate: the code the crate's
      `Error` carries for a failed call, reinterpreted as `u32` by
      `e.code().0 as u32`. */
  function HresultFromWin32(code: u32): (h: u32)
    ensures code == 0 || code >= 0x8000_0000 ==> h == code
    ensures 0 < code < 0x8000_0000 ==> 0x8007_0000 <= h < 0x8008_0000 && h % 0x1_0000 == code % 0x1_0000
  {
    if code == 0 || code >= 0x8000_0000 then code
    else 0x8007_0000 + code % 0x1_0000
  }

  /** The success map, with `used = total.saturating_sub(free)`. */
  function Success(available: u64, free: u64, total: u64): (r: Outcome)
    ensures r.Ok? && Consistent(r.stats)
    ensures r.stats.available == available && r.stats.free == free && r.stats.total == total
  {
    SaturatingSubIsClampedDifference(total, free);
    Ok(Stats(available, free, total, SaturatingSub(total, free)))
  }

  /** The Windows branch: `CStr::to_str`, which fails unless the bytes are
      RFC 3629 UTF-8, the long-path rewrite on the decoded text, then
      `WideCString::from_str` and the queries. */
  function WindowsStatFs(path: Bytes, os: Os): (r: Outcome)
    ensures WellShaped(r)
    ensures r.Error? ==> r.reason in {PathConversionFailed, NotDirectory, WinapiFailed}
  {
    if !Rfc3629(path) then Error(PathConversionFailed, None)
    else
      match WideCStringFromStr(RewriteLongPath(Decode(path)))
      case None => Error(PathConversionFailed, None)
      case Some(wide) => WindowsQueries(wide, os)
  }

  /** `GetFileAttributesW` and `GetDiskFreeSpaceExW` on the wide path. */
  function WindowsQueries(wide: WString, os: Os): (r: Outcome)
    ensures WellShaped(r)
    ensures r.Error? ==> r.reason in {NotDirectory, WinapiFailed}
  {
    var attr := os.fileAttributes(wide);
    if attr.attributes == INVALID_FILE_ATTRIBUTES then
      WinapiError(NotDirectory, attr.lastError, os)
    else if attr.attributes & FILE_ATTRIBUTE_DIRECTORY == 0 then
      Error(NotDirectory, None)
    else
      match os.diskFreeSpace(wide)
      case DiskFreeError(err) => WinapiError(WinapiFailed, HresultFromWin32(err), os)
      case DiskFreeInfo(available, total, free) => Success(available, free, total)
  }

  /** The Unix branch: `metadata`, then `statfs` on Linux or `statvfs`
      elsewhere, with no fallback between the two. */
  function UnixStatFs(linux: bool, path: Bytes, os: Os): (r: Outcome)
    ensures WellShaped(r)
    ensures r.Error? ==> r.reason in {NotDirectory, StatvfsFailed, StatfsFailed}
    ensures r.Error? && linux ==> r.reason != StatvfsFailed
    ensures r.Error? && !linux ==> r.reason != StatfsFailed
  {
    match os.metadata(path)
    case MetadataError(raw, text) => ErrnoError(NotDirectory, raw, text)
    case MetadataInfo(isDir) =>
      if !isDir then Error(NotDirectory, None)
      else if linux then
        match os.statfs(path)
        case FsError(err) => ErrnoError(StatfsFailed, Some(err), os.ioErrorText(err))
        case FsInfo(blocks, bfree, bavail, bsize) =>
          var (total, free, available) := ScaleBlocks(blocks, bfree, bavail, bsize);
          Success(available, free, total)
      else
        match os.statvfs(path)
        case VfsError(err) => ErrnoError(StatvfsFailed, Some(err), os.ioErrorText(err))
        case VfsInfo(blocks, bfree, bavail, _, frsize) =>
          var (total, free, available) := ScaleBlocks(blocks, bfree, bavail, frsize);
          Success(available, free, total)
  }

  /** The reasons `stat_fs` can return on each platform. */
  function Reasons(platform: Platform): set<Reason> {
    match platform
    case Windows => {InvalidPath, PathConversionFailed, NotDirectory, WinapiFailed}
    case Linux => {InvalidPath, NotDirectory, StatfsFailed}
    case OtherPosix => {InvalidPath, NotDirectory, StatvfsFailed}
  }

  /** `stat_fs(path_term)`. */
  function StatFs(platform: Platform, term: PathTerm, os: Os): (r: Outcome)
    ensures PathFromTerm(term).None? ==> r == Error(InvalidPath, None)
    ensures WellShaped(r)
    ensures r.Error? ==> r.reason in Reasons(platform)
  {
    match PathFromTerm(term)
    case None => Error(InvalidPath, None)
    case Some(path) =>
      if platform == Windows then WindowsStatFs(path, os)
      else UnixStatFs(platform == Linux, path, os)
  }

  /** Path intake is decided before any native call: when it fails, no reply
      of the operating system changes the outcome. */
  lemma IntakePrecedesNativeCalls(platform: Platform, term: PathTerm, os: Os, other: Os)
    requires PathFromTerm(term).None?
    ensures StatFs(platform, term, os) == StatFs(platform, term, other)
    ensures StatFs(platform, term, os) == Error(InvalidPath, None)
  {
  }

  /** A failed `metadata` is `not_directory` with `raw_os_error`, or 0 when
      there is none; an existing non-directory is `not_directory` alone. */
  lemma UnixNotDirectory(platform: Platform, b: Bytes, os: Os)
    requires platform != Windows && |b| > 0 && NoNul(b)
    ensures var m := os.metadata(b);
            m.MetadataError? ==>
              StatFs(platform, Binary(b), os) == Error(NotDirectory, Some(Detail(m.rawOsError.GetOr(0), m.text)))
    ensures os.metadata(b).MetadataError? && os.metadata(b).rawOsError.None? ==>
              StatFs(platform, Binary(b), os).detail == Some(Detail(0, os.metadata(b).text))
    ensures os.metadata(b) == MetadataInfo(false) ==> StatFs(platform, Binary(b), os) == Error(NotDirectory, None)
  {
  }

  /** On Linux only `statfs` is asked: counts times its block size, or
      `statfs_failed` with its errno; `statvfs` is never called. */
  lemma LinuxStatfsOnly(b: Bytes, os: Os, other: Bytes -> StatvfsReply)
    requires |b| > 0 && NoNul(b) && os.metadata(b) == MetadataInfo(true)
    ensures var f := os.statfs(b);
            f.FsInfo? ==>
              StatFs(Linux, Binary(b), os)
                == Ok(Stats(WrappingMul(f.bavail, f.bsize), WrappingMul(f.bfree, f.bsize),
                            WrappingMul(f.blocks, f.bsize),
                            SaturatingSub(WrappingMul(f.blocks, f.bsize), WrappingMul(f.bfree, f.bsize))))
    ensures var f := os.statfs(b);
            f.FsError? ==>
              StatFs(Linux, Binary(b), os) == Error(StatfsFailed, Some(Detail(f.errno, os.ioErrorText(f.errno))))
    ensures StatFs(Linux, Binary(b), os.(statvfs := other)) == StatFs(Linux, Binary(b), os)
  {
  }

  /** On other Unix systems only `statvfs` is asked: counts times
      `f_frsize`, or `statvfs_failed` with its errno; `statfs` is never
      called. */
  lemma OtherUnixStatvfsOnly(b: Bytes, os: Os, other: Bytes -> StatfsReply)
    requires |b| > 0 && NoNul(b) && os.metadata(b) == MetadataInfo(true)
    ensures var v := os.statvfs(b);
            v.VfsInfo? ==>
              StatFs(OtherPosix, Binary(b), os)
                == Ok(Stats(WrappingMul(v.bavail, v.frsize), WrappingMul(v.bfree, v.frsize),
                            WrappingMul(v.blocks, v.frsize),
                            SaturatingSub(WrappingMul(v.blocks, v.frsize), WrappingMul(v.bfree, v.frsize))))
    ensures var v := os.statvfs(b);
            v.VfsError? ==>
              StatFs(OtherPosix, Binary(b), os) == Error(StatvfsFailed, Some(Detail(v.errno, os.ioErrorText(v.errno))))
    ensures StatFs(OtherPosix, Binary(b), os.(statfs := other)) == StatFs(OtherPosix, Binary(b), os)
  {
  }

  /** The rewritten path of a NUL-free RFC 3629 path converts: the queries
      receive the code units of the rewritten decoded text. */
  lemma {:induction false} WindowsQueriesRewrittenPath(b: Bytes, os: Os)
    requires |b| > 0 && NoNul(b) && Rfc3629(b)
    ensures StatFs(Windows, Binary(b), os) == WindowsQueries(Widen(RewriteLongPath(Decode(b))), os)
  {
    var long := RewriteLongPath(Decode(b));
    RewriteKeepsNoNul(Decode(b));
    assert WideCStringFromStr(long) == Some(Widen(long));
    assert PathFromTerm(Binary(b)) == Some(b);
    assert StatFs(Windows, Binary(b), os) == WindowsStatFs(b, os);
  }

  /** On Windows a path that is not RFC 3629 UTF-8 fails conversion; a
      convertible one is rewritten to a long path, which carries the
      `\\?\` prefix, before the queries. */
  lemma {:induction false} WindowsOutcomes(b: Bytes, os: Os)
    requires |b| > 0 && NoNul(b)
    ensures !Rfc3629(b) ==> StatFs(Windows, Binary(b), os) == Error(PathConversionFailed, None)
    ensures Rfc3629(b) ==>
              var wide := Widen(RewriteLongPath(Decode(b)));
              StartsWith(wide, WIDE_PREFIX) && StatFs(Windows, Binary(b), os) == WindowsQueries(wide, os)
  {
    if Rfc3629(b) {
      WindowsQueriesRewrittenPath(b, os);
      var long := RewriteLongPath(Decode(b));
      WidenPrefix();
      WidenStartsWith(long, PREFIX);
    } else {
      assert PathFromTerm(Binary(b)) == Some(b);
    }
  }

  /** The queries: an attribute failure is `not_directory` with the Win32
      code, a non-directory `not_directory` alone, a disk query failure
      `winapi_failed` with the HRESULT, and success the four byte counts. */
  lemma WindowsQueriesOutcomes(wide: WString, os: Os)
    ensures var attr := os.fileAttributes(wide);
            var r := WindowsQueries(wide, os);
            && (attr.attributes == INVALID_FILE_ATTRIBUTES ==>
                  r == WinapiError(NotDirectory, attr.lastError, os))
            && (attr.attributes != INVALID_FILE_ATTRIBUTES && attr.attributes & FILE_ATTRIBUTE_DIRECTORY == 0 ==>
                  r == Error(NotDirectory, None))
            && (attr.attributes != INVALID_FILE_ATTRIBUTES && attr.attributes & FILE_ATTRIBUTE_DIRECTORY != 0 ==>
                  match os.diskFreeSpace(wide)
                  case DiskFreeError(e) => r == WinapiError(WinapiFailed, HresultFromWin32(e), os)
                  case DiskFreeInfo(a, t, f) => r == Ok(Stats(a, f, t, SaturatingSub(t, f))))
  {
  }

  /** A binary `\\` + `rest`, where `rest` does not start with `?`, is a
      UNC path: the queries receive `\\?\UNC` followed by the decoded
      `rest`, with no backslash in between. */
  lemma {:induction false} UncBinaryQueries(rest: Bytes, os: Os)
    requires |rest| > 0 && NoNul(rest) && Rfc3629(rest) && rest[0] != 0x3F
    ensures Rfc3629([0x5C, 0x5C] + rest)
    ensures StatFs(Windows, Binary([0x5C, 0x5C] + rest), os) == WindowsQueries(Widen(UNC_PREFIX + Decode(rest)), os)
  {
    var b: Bytes := [0x5C, 0x5C] + rest;
    DecodeAsciiHead(0x5C, rest);
    DecodeAsciiHead(0x5C, [0x5C] + rest);
    assert [0x5C] + ([0x5C] + rest) == b;
    var text := Decode(b);
    assert text == "\\\\" + Decode(rest);
    DecodeFirst(rest);
    assert text[2] != '?';
    assert IsUnc(text);
    assert text[2..] == Decode(rest);
    WindowsQueriesRewrittenPath(b, os);
  }
}

=== FILE: unsigned.dfy ===
/** Fixed-width unsigned integers and the arithmetic the native code does on
    them: `uint64_t` products that wrap modulo 2^64, and the two ways the
    code keeps `total - free` from wrapping. */
module Unsigned {

  const U64_MODULUS: int := 0x1_0000_0000_0000_0000

  type u16 = x: int | 0 <= x < 0x1_0000
  type u32 = x: int | 0 <= x < 0x1_0000_0000
  type u64 = x: int | 0 <= x < U64_MODULUS

  /** `a * b` on `uint64_t`: the product reduced modulo 2^64. */
  function WrappingMul(a: u64, b: u64): (r: u64)
    ensures a * b < U64_MODULUS ==> r == a * b
    ensures (a * b - r) % U64_MODULUS == 0
  {
    (a * b) % U64_MODULUS
  }

  /** `a - b` on `uint64_t`, as the C code would compute it without a guard. */
  function WrappingSub(a: u64, b: u64): (r: u64)
    ensures b <= a ==> r == a - b
    ensures (a - b - r) % U64_MODULUS == 0
  {
    (a - b) % U64_MODULUS
  }

  /** The C code's `used`: 0, replaced by `total - free` only when
      `total >= free`. */
  function ClampedDifference(total: u64, free: u64): (used: u64)
    ensures used <= total
    ensures total >= free ==> used + free == total
    ensures total < free ==> used == 0
  {
    if total >= free then total - free else 0
  }

  /** The nearest u64 to an unbounded integer. */
  function Saturate(x: int): (r: u64)
    ensures 0 <= x < U64_MODULUS ==> r == x
    ensures x < 0 ==> r == 0
    ensures U64_MODULUS <= x ==> r == U64_MODULUS - 1
  {
    if x < 0 then 0 else if x >= U64_MODULUS then U64_MODULUS - 1 else x
  }

  /** Rust's `u64::saturating_sub`: the exact difference, saturated at the
      bounds of the type instead of wrapping. */
  function SaturatingSub(a: u64, b: u64): (r: u64)
  {
    Saturate(a - b)
  }

  /** Rust's `saturating_sub` and the C code's guarded subtraction compute
      the same `used`. */
  lemma SaturatingSubIsClampedDifference(total: u64, free: u64)
    ensures SaturatingSub(total, free) == ClampedDifference(total, free)
    ensures SaturatingSub(total, free) <= total
  {
  }

  /** The guard matters: whenever `free > total`, the unguarded wrapping
      subtraction would report more bytes used than the filesystem has. */
  lemma UnguardedSubtractionOverstates(total: u64, free: u64)
    requires total < free
    ensures WrappingSub(total, free) > total
    ensures ClampedDifference(total, free) == 0
  {
    assert WrappingSub(total, free) == total - free + U64_MODULUS;
  }
}

=== FILE: utf16.dfy ===
/** UTF-16, the encoding of the Windows wide-character API: a character
    below U+10000 is one code unit, any other is a surrogate pair, as
    section 2.1 of RFC 2781 lays them out. */
module Utf16 {
  import opened Wrappers
  import opened Unsigned

  type WString = seq<u16>

  /** The code units of one character. */
  function Units(c: char): (w: WString)
    ensures c as int < 0x1_0000 ==> w == [c as int]
    ensures c as int >= 0x1_0000 ==>
              |w| == 2 && 0xD800 <= w[0] < 0xDC00 && 0xDC00 <= w[1] < 0xE000
  {
    var v := c as int;
    if v < 0x1_0000 then [v]
    else
      var u := v - 0x1_0000;
      [0xD800 + u / 0x400, 0xDC00 + u % 0x400]
  }

  /** A string's code units, character after character. */
  function Widen(s: string): (w: WString)
    ensures |w| >= |s|
    decreases |s|
  {
    if |s| == 0 then [] else Units(s[0]) + Widen(s[1..])
  }

  /** Reading code units back as characters: a surrogate pair is one
      character, an unpaired surrogate reads as U+FFFD. */
  function Narrow(w: WString): (s: string)
    decreases |w|
  {
    if |w| == 0 then []
    else if 0xD800 <= w[0] < 0xDC00 && |w| > 1 && 0xDC00 <= w[1] < 0xE000 then
      [(0x1_0000 + (w[0] as int - 0xD800) * 0x400 + (w[1] as int - 0xDC00)) as char] + Narrow(w[2..])
    else if 0xD800 <= w[0] < 0xE000 then
      ['�'] + Narrow(w[1..])
    else
      [w[0] as char] + Narrow(w[1..])
  }

  /** The units of one character read back as that character. */
  lemma NarrowUnits(c: char, w: WString)
    ensures Narrow(Units(c) + w) == [c] + Narrow(w)
  {
    var u := Units(c) + w;
    var v := c as int;
    if v < 0x1_0000 {
      assert u[0] == v && u[1..] == w;
    } else {
      var x := v - 0x1_0000;
      assert u[0] == 0xD800 + x / 0x400 && u[1] == 0xDC00 + x % 0x400;
      assert u[2..] == w;
      assert 0x1_0000 + (u[0] as int - 0xD800) * 0x400 + (u[1] as int - 0xDC00) == v;
    }
  }

  /** Widening loses nothing: narrowing the units gives back the string. */
  lemma {:induction false} NarrowWiden(s: string)
    ensures Narrow(Widen(s)) == s
    decreases |s|
  {
    if |s| > 0 {
      NarrowUnits(s[0], Widen(s[1..]));
      NarrowWiden(s[1..]);
      assert s == [s[0]] + s[1..];
    }
  }

  /** Widening distributes over concatenation. */
  lemma {:induction false} WidenAppend(a: string, b: string)
    ensures Widen(a + b) == Widen(a) + Widen(b)
    decreases |a|
  {
    if |a| > 0 {
      assert (a + b)[0] == a[0] && (a + b)[1..] == a[1..] + b;
      WidenAppend(a[1..], b);
    } else {
      assert a + b == b;
    }
  }

  /** `WideCString::from_str` of the `widestring` crate: the string's code
      units, or a failure when it holds a NUL. */
  function WideCStringFromStr(s: string): (w: Option<WString>)
    ensures w.Some? <==> forall k :: 0 <= k < |s| ==> s[k] != '\0'
    ensures w.Some? ==> w.value == Widen(s) && Narrow(w.value) == s
  {
    NarrowWiden(s);
    if forall k :: 0 <= k < |s| ==> s[k] != '\0' then Some(Widen(s)) else None
  }
}

=== FILE: utf8.dfy ===
/** UTF-8 well-formedness as the C NIF's `is_valid_utf8` decides it.

    The reference is a grammar over byte ranges in the shape of the table in
    section 4 of RFC 3629: a byte sequence is well formed when it splits into
    encoded characters. The C validator follows that table with one
    exception: after the lead byte 0xF4 it accepts every continuation byte,
    so the encodings of U+110000..U+13FFFF pass. `Characters(s, false)` is
    the language the C code accepts, `Characters(s, true)` the RFC's. */
module Utf8 {

  type byte = bv8

  /** A continuation byte, 10xxxxxx. */
  predicate IsContinuation(b: byte) {
    0x80 <= b <= 0xBF
  }

  /** The length of the encoded character a lead byte announces, by range;
      0 for a byte no character starts with. */
  function LeadLength(b: byte): nat {
    if b <= 0x7F then 1
    else if 0xC2 <= b <= 0xDF then 2
    else if 0xE0 <= b <= 0xEF then 3
    else if 0xF0 <= b <= 0xF4 then 4
    else 0
  }

  /** `s` is exactly one encoded character. With `strict`, the lead 0xF4
      admits only 0x80..0x8F as its second byte, as RFC 3629 demands. */
  predicate Character(s: seq<byte>, strict: bool) {
    if |s| == 1 then
      s[0] <= 0x7F
    else if |s| == 2 then
      0xC2 <= s[0] <= 0xDF && IsContinuation(s[1])
    else if |s| == 3 then
      && (|| (s[0] == 0xE0 && 0xA0 <= s[1] <= 0xBF)
          || (0xE1 <= s[0] <= 0xEC && IsContinuation(s[1]))
          || (s[0] == 0xED && 0x80 <= s[1] <= 0x9F)
          || (0xEE <= s[0] <= 0xEF && IsContinuation(s[1])))
      && IsContinuation(s[2])
    else if |s| == 4 then
      && (|| (s[0] == 0xF0 && 0x90 <= s[1] <= 0xBF)
          || (0xF1 <= s[0] <= 0xF3 && IsContinuation(s[1]))
          || (s[0] == 0xF4 && (if strict then 0x80 <= s[1] <= 0x8F else IsContinuation(s[1]))))
      && IsContinuation(s[2]) && IsContinuation(s[3])
    else
      false
  }

  /** `s` is a concatenation of encoded characters. */
  predicate Characters(s: seq<byte>, strict: bool)
    decreases |s|
  {
    || |s| == 0
    || (1 <= |s| && Character(s[..1], strict) && Characters(s[1..], strict))
    || (2 <= |s| && Character(s[..2], strict) && Characters(s[2..], strict))
    || (3 <= |s| && Character(s[..3], strict) && Characters(s[3..], strict))
    || (4 <= |s| && Character(s[..4], strict) && Characters(s[4..], strict))
  }

  /** What `is_valid_utf8` accepts. */
  predicate WellFormed(s: seq<byte>) {
    Characters(s, false)
  }

  /** Well-formed UTF-8 as RFC 3629 defines it. */
  predicate Rfc3629(s: seq<byte>) {
    Characters(s, true)
  }

  /** A character's length is the one its lead byte announces. */
  lemma CharacterLength(s: seq<byte>, strict: bool)
    requires Character(s, strict)
    ensures |s| == LeadLength(s[0])
  {
  }

  /** Peeling the first character off a sequence keeps its verdict. */
  lemma PeelCharacter(t: seq<byte>, n: nat, strict: bool)
    requires 1 <= n <= |t| && Character(t[..n], strict)
    ensures Characters(t, strict) <==> Characters(t[n..], strict)
  {
    CharacterLength(t[..n], strict);
    forall m | 1 <= m <= 4 && m <= |t| && Character(t[..m], strict)
      ensures m == n
    {
      CharacterLength(t[..m], strict);
    }
  }

  /** A sequence whose first bytes form no character is not well formed. */
  lemma NoLeadingCharacter(t: seq<byte>, strict: bool)
    requires |t| > 0
    requires var n := LeadLength(t[0]); n == 0 || n > |t| || !Character(t[..n], strict)
    ensures !Characters(t, strict)
  {
    forall m | 1 <= m <= 4 && m <= |t| && Character(t[..m], strict)
      ensures false
    {
      CharacterLength(t[..m], strict);
    }
  }

  /** The validator of the C NIF (`is_valid_utf8`), one index walking the
      buffer and dispatching on the high bits of each lead byte. */
  method IsValidUtf8(data: seq<byte>) returns (valid: bool)
    ensures valid <==> WellFormed(data)
  {
    var i := 0;
    while i < |data|
      invariant 0 <= i <= |data|
      invariant WellFormed(data) <==> WellFormed(data[i..])
    {
      ghost var rest := data[i..];
      if data[i] < 0x80 {
        PeelCharacter(rest, 1, false);
        i := i + 1;
      } else if (data[i] & 0xE0) == 0xC0 {
        if i + 1 >= |data| || (data[i + 1] & 0xC0) != 0x80 {
          NoLeadingCharacter(rest, false);
          return false;
        }
        if (data[i] & 0x1E) == 0 {
          NoLeadingCharacter(rest, false);
          return false;
        }
        assert rest[..2] == data[i..i + 2];
        PeelCharacter(rest, 2, false);
        assert rest[2..] == data[i + 2..];
        i := i + 2;
      } else if (data[i] & 0xF0) == 0xE0 {
        if i + 2 >= |data| || (data[i + 1] & 0xC0) != 0x80 || (data[i + 2] & 0xC0) != 0x80 {
          NoLeadingCharacter(rest, false);
          return false;
        }
        if (data[i] == 0xE0 && (data[i + 1] & 0xE0) == 0x80)
          || (data[i] == 0xED && (data[i + 1] & 0xE0) == 0xA0)
        {
          assert rest[..3] == data[i..i + 3];
          NoLeadingCharacter(rest, false);
          return false;
        }
        assert rest[..3] == data[i..i + 3];
        PeelCharacter(rest, 3, false);
        assert rest[3..] == data[i + 3..];
        i := i + 3;
      } else if (data[i] & 0xF8) == 0xF0 {
        if i + 3 >= |data| || (data[i + 1] & 0xC0) != 0x80 || (data[i + 2] & 0xC0) != 0x80
          || (data[i + 3] & 0xC0) != 0x80
        {
          NoLeadingCharacter(rest, false);
          return false;
        }
        if (data[i] == 0xF0 && (data[i + 1] & 0xF0) == 0x80) || data[i] > 0xF4 {
          assert rest[..4] == data[i..i + 4];
          NoLeadingCharacter(rest, false);
          return false;
        }
        assert rest[..4] == data[i..i + 4];
        PeelCharacter(rest, 4, false);
        assert rest[4..] == data[i + 4..];
        i := i + 4;
      } else {
        NoLeadingCharacter(rest, false);
        return false;
      }
    }
    return true;
  }

  /** The empty sequence and every all-ASCII sequence are accepted. */
  lemma {:induction false} AsciiIsWellFormed(s: seq<byte>)
    requires forall k :: 0 <= k < |s| ==> s[k] < 0x80
    ensures WellFormed(s)
    decreases |s|
  {
    if |s| > 0 {
      AsciiIsWellFormed(s[1..]);
      assert Character(s[..1], false);
    }
  }

  /** A well-formed prefix never changes the verdict on what follows it, so
      every rejection stated at the start of a sequence below holds at each
      character boundary of a longer one. */
  lemma {:induction false} WellFormedPrefix(p: seq<byte>, s: seq<byte>, strict: bool)
    requires Characters(p, strict)
    ensures Characters(p + s, strict) <==> Characters(s, strict)
    decreases |p|
  {
    if |p| > 0 {
      var n := LeadLength(p[0]);
      FirstCharacter(p, strict);
      assert (p + s)[..n] == p[..n];
      assert (p + s)[n..] == p[n..] + s;
      PeelCharacter(p, n, strict);
      PeelCharacter(p + s, n, strict);
      WellFormedPrefix(p[n..], s, strict);
    } else {
      assert p + s == s;
    }
  }

  /** The first character of a well-formed sequence is the one its lead
      byte announces. */
  lemma FirstCharacter(t: seq<byte>, strict: bool)
    requires |t| > 0 && Characters(t, strict)
    ensures 1 <= LeadLength(t[0]) <= |t| && Character(t[..LeadLength(t[0])], strict)
  {
    var n := LeadLength(t[0]);
    if n == 0 || n > |t| || !Character(t[..n], strict) {
      NoLeadingCharacter(t, strict);
    }
  }

  /** The byte counts that the high bits of a lead byte claim: 2 for 110xxxxx,
      3 for 1110xxxx, 4 for 11110xxx (C0, C1 and F5..F7 included). */
  function ClaimedLength(b: byte): nat {
    if b < 0x80 then 1
    else if (b & 0xE0) == 0xC0 then 2
    else if (b & 0xF0) == 0xE0 then 3
    else if (b & 0xF8) == 0xF0 then 4
    else 0
  }

  /** The forms `is_valid_utf8` rejects, stated at the start of a sequence. */
  lemma RejectedForms(t: seq<byte>)
    requires |t| > 0
    // a multi-byte lead whose continuation bytes run past the end
    ensures |t| < ClaimedLength(t[0]) ==> !WellFormed(t)
    // a byte inside the claimed sequence that is not 10xxxxxx
    ensures forall j :: 1 <= j < ClaimedLength(t[0]) && j < |t| && !IsContinuation(t[j]) ==> !WellFormed(t)
    // a lead byte in 0x80..0xBF or 0xF8..0xFF
    ensures (0x80 <= t[0] <= 0xBF || 0xF8 <= t[0]) ==> !WellFormed(t)
    // overlong two-byte leads
    ensures (t[0] == 0xC0 || t[0] == 0xC1) ==> !WellFormed(t)
    // overlong three- and four-byte forms
    ensures |t| >= 2 && t[0] == 0xE0 && 0x80 <= t[1] <= 0x9F ==> !WellFormed(t)
    ensures |t| >= 2 && t[0] == 0xF0 && 0x80 <= t[1] <= 0x8F ==> !WellFormed(t)
    // UTF-16 surrogates
    ensures |t| >= 2 && t[0] == 0xED && 0xA0 <= t[1] <= 0xBF ==> !WellFormed(t)
    // leads beyond the Unicode range, except 0xF4
    ensures 0xF5 <= t[0] <= 0xF7 ==> !WellFormed(t)
  {
    if WellFormed(t) {
      FirstCharacter(t, false);
    }
  }

  /** RFC 3629 well-formedness implies acceptance by the C validator. */
  lemma {:induction false} Rfc3629IsWellFormed(s: seq<byte>)
    requires Rfc3629(s)
    ensures WellFormed(s)
    decreases |s|
  {
    if |s| > 0 {
      FirstCharacter(s, true);
      var n := LeadLength(s[0]);
      PeelCharacter(s, n, true);
      Rfc3629IsWellFormed(s[n..]);
      PeelCharacter(s, n, false);
    }
  }

  /** No byte 0xF4 followed by one in 0x90..0xBF. */
  predicate NoBeyondUnicodeLead(s: seq<byte>) {
    forall k :: 0 <= k < |s| - 1 ==> !(s[k] == 0xF4 && 0x90 <= s[k + 1])
  }

  /** The 0xF4 leniency is the only difference: without that pair of bytes
      the C validator accepts exactly RFC 3629 UTF-8. */
  lemma {:induction false} WellFormedIsRfc3629(s: seq<byte>)
    requires WellFormed(s) && NoBeyondUnicodeLead(s)
    ensures Rfc3629(s)
    decreases |s|
  {
    if |s| > 0 {
      FirstCharacter(s, false);
      var n := LeadLength(s[0]);
      PeelCharacter(s, n, false);
      assert NoBeyondUnicodeLead(s[n..]) by {
        forall k | 0 <= k < |s[n..]| - 1
          ensures !(s[n..][k] == 0xF4 && 0x90 <= s[n..][k + 1])
        {
          assert s[n..][k] == s[n + k] && s[n..][k + 1] == s[n + k + 1];
        }
      }
      WellFormedIsRfc3629(s[n..]);
      if n >= 2 {
        assert !(s[0] == 0xF4 && 0x90 <= s[1]);
      }
      assert Character(s[..n], true);
      PeelCharacter(s, n, true);
    }
  }

  /** The byte values of an RFC 3629 character, as integers: one row of
      the table in section 4 of RFC 3629 per length. */
  predicate CharacterValues(n: nat, b0: int, b1: int, b2: int, b3: int) {
    if n == 1 then 0 <= b0 < 0x80
    else if n == 2 then 0xC2 <= b0 <= 0xDF && 0x80 <= b1 <= 0xBF
    else if n == 3 then
      && (|| (b0 == 0xE0 && 0xA0 <= b1 <= 0xBF)
          || (0xE1 <= b0 <= 0xEC && 0x80 <= b1 <= 0xBF)
          || (b0 == 0xED && 0x80 <= b1 <= 0x9F)
          || (0xEE <= b0 <= 0xEF && 0x80 <= b1 <= 0xBF))
      && 0x80 <= b2 <= 0xBF
    else if n == 4 then
      && (|| (b0 == 0xF0 && 0x90 <= b1 <= 0xBF)
          || (0xF1 <= b0 <= 0xF3 && 0x80 <= b1 <= 0xBF)
          || (b0 == 0xF4 && 0x80 <= b1 <= 0x8F))
      && 0x80 <= b2 <= 0xBF && 0x80 <= b3 <= 0xBF
    else false
  }

  /** The `i`th byte as an integer, 0 past the end. */
  function ByteAt(s: seq<byte>, i: nat): (v: int)
    ensures 0 <= v < 0x100
  {
    if i < |s| then s[i] as int else 0
  }

  /** An RFC 3629 character read as integers. */
  lemma CharacterAsValues(s: seq<byte>)
    requires Character(s, true)
    ensures CharacterValues(|s|, ByteAt(s, 0), ByteAt(s, 1), ByteAt(s, 2), ByteAt(s, 3))
  {
  }

  /** The scalar value of the bytes `b0..b3` of an `n`-byte character: the
      payload bits of the lead byte followed by six bits from each
      continuation byte. Each length covers exactly its row of the table in
      section 3 of RFC 3629, so no value has two encodings. */
  function ScalarValue(n: nat, b0: int, b1: int, b2: int, b3: int): (v: int)
    requires CharacterValues(n, b0, b1, b2, b3)
    ensures 0 <= v < 0xD800 || 0xE000 <= v < 0x11_0000
    ensures n == 1 <==> v < 0x80
    ensures n == 2 <==> 0x80 <= v < 0x800
    ensures n == 3 <==> 0x800 <= v < 0x1_0000
    ensures n == 4 <==> 0x1_0000 <= v
  {
    if n == 1 then b0
    else if n == 2 then (b0 - 0xC0) * 0x40 + (b1 - 0x80)
    else if n == 3 then (b0 - 0xE0) * 0x1000 + (b1 - 0x80) * 0x40 + (b2 - 0x80)
    else (b0 - 0xF0) * 0x4_0000 + (b1 - 0x80) * 0x1000 + (b2 - 0x80) * 0x40 + (b3 - 0x80)
  }

  /** The character one RFC 3629 encoded character stands for. */
  function CodePoint(s: seq<byte>): (c: char)
    requires Character(s, true)
    ensures |s| == 1 <==> c as int < 0x80
    ensures |s| == 2 <==> 0x80 <= c as int < 0x800
    ensures |s| == 3 <==> 0x800 <= c as int < 0x1_0000
    ensures |s| == 4 <==> 0x1_0000 <= c as int
    ensures |s| == 1 ==> c as int == s[0] as int
  {
    CharacterAsValues(s);
    ScalarValue(|s|, ByteAt(s, 0), ByteAt(s, 1), ByteAt(s, 2), ByteAt(s, 3)) as char
  }

  /** The UTF-8 encoding of one scalar value, as section 3 of RFC 3629
      lays the bits out (six bits per continuation byte), with the bytes as
      integers. */
  function EncodeValue(v: int): (s: seq<int>)
    requires 0 <= v < 0x11_0000
  {
    if v < 0x80 then [v]
    else if v < 0x800 then [0xC0 + v / 0x40, 0x80 + v % 0x40]
    else if v < 0x1_0000 then [0xE0 + v / 0x40 / 0x40, 0x80 + v / 0x40 % 0x40, 0x80 + v % 0x40]
    else [0xF0 + v / 0x40 / 0x40 / 0x40, 0x80 + v / 0x40 / 0x40 % 0x40, 0x80 + v / 0x40 % 0x40, 0x80 + v % 0x40]
  }

  /** Six low bits split off and put back. */
  lemma SplitSixBits(q: int, r: int)
    requires 0 <= r < 0x40
    ensures (q * 0x40 + r) / 0x40 == q && (q * 0x40 + r) % 0x40 == r
  {
  }

  /** Encoding a scalar value gives back the bytes it was read from. */
  lemma EncodeScalarValue(n: nat, b0: int, b1: int, b2: int, b3: int)
    requires CharacterValues(n, b0, b1, b2, b3)
    ensures EncodeValue(ScalarValue(n, b0, b1, b2, b3)) == [b0, b1, b2, b3][..n]
  {
    var v := ScalarValue(n, b0, b1, b2, b3);
    if n == 2 {
      SplitSixBits(b0 - 0xC0, b1 - 0x80);
    } else if n == 3 {
      var hi := (b0 - 0xE0) * 0x40 + (b1 - 0x80);
      assert v == hi * 0x40 + (b2 - 0x80);
      SplitSixBits(hi, b2 - 0x80);
      SplitSixBits(b0 - 0xE0, b1 - 0x80);
    } else if n == 4 {
      var top := (b0 - 0xF0) * 0x40 + (b1 - 0x80);
      var hi := top * 0x40 + (b2 - 0x80);
      assert v == hi * 0x40 + (b3 - 0x80);
      SplitSixBits(hi, b3 - 0x80);
      SplitSixBits(top, b2 - 0x80);
      SplitSixBits(b0 - 0xF0, b1 - 0x80);
    }
  }

  /** Integers below 0x100 as bytes. */
  function BytesOf(e: seq<int>): (s: seq<byte>)
    ensures |s| == |e|
  {
    seq(|e|, k requires 0 <= k < |e| => (e[k] % 0x100) as byte)
  }

  /** The UTF-8 encoding of one character, as bytes. */
  function Encode(c: char): (s: seq<byte>)
  {
    BytesOf(EncodeValue(c as int))
  }

  /** Bytes read as integers and written back are the same bytes. */
  lemma BytesOfValues(e: seq<int>, s: seq<byte>)
    requires |e| == |s| && forall k :: 0 <= k < |s| ==> e[k] == s[k] as int
    ensures BytesOf(e) == s
  {
    forall k | 0 <= k < |s|
      ensures BytesOf(e)[k] == s[k]
    {
      ByteRoundTrip(s[k]);
    }
  }

  /** A byte read as an integer and written back is the same byte. */
  lemma ByteRoundTrip(b: byte)
    ensures (b as int % 0x100) as byte == b
  {
    ByteAsInt(b);
  }

  /** A byte's integer value converts back to it. */
  lemma ByteAsInt(b: byte)
    ensures 0 <= b as int < 0x100 && (b as int) as byte == b
  {
  }

  /** Encoding the character a sequence decodes to gives back its bytes. */
  lemma EncodeCodePoint(s: seq<byte>)
    requires Character(s, true)
    ensures Encode(CodePoint(s)) == s
  {
    CharacterAsValues(s);
    var b0, b1, b2, b3 := ByteAt(s, 0), ByteAt(s, 1), ByteAt(s, 2), ByteAt(s, 3);
    var v := ScalarValue(|s|, b0, b1, b2, b3);
    assert CodePoint(s) as int == v;
    EncodeScalarValue(|s|, b0, b1, b2, b3);
    var e := EncodeValue(v);
    assert e == [b0, b1, b2, b3][..|s|];
    assert forall k :: 0 <= k < |s| ==> e[k] == s[k] as int;
    BytesOfValues(e, s);
  }

  /** `CStr::to_str` on RFC 3629 UTF-8: the sequence read as scalar values,
      one per encoded character. */
  function Decode(s: seq<byte>): (text: string)
    requires Rfc3629(s)
    ensures |text| <= |s|
    ensures (forall k :: 0 <= k < |s| ==> s[k] != 0) ==> forall k :: 0 <= k < |text| ==> text[k] != '\0'
    decreases |s|
  {
    if |s| == 0 then []
    else
      FirstCharacter(s, true);
      var n := LeadLength(s[0]);
      PeelCharacter(s, n, true);
      [CodePoint(s[..n])] + Decode(s[n..])
  }

  /** The UTF-8 encoding of a whole string. */
  function EncodeText(text: string): (s: seq<byte>)
    decreases |text|
  {
    if |text| == 0 then [] else Encode(text[0]) + EncodeText(text[1..])
  }

  /** Decoding loses nothing: encoding the decoded text gives back the
      bytes. */
  lemma {:induction false} EncodeDecode(s: seq<byte>)
    requires Rfc3629(s)
    ensures EncodeText(Decode(s)) == s
    decreases |s|
  {
    if |s| > 0 {
      FirstCharacter(s, true);
      var n := LeadLength(s[0]);
      PeelCharacter(s, n, true);
      EncodeCodePoint(s[..n]);
      EncodeDecode(s[n..]);
      var text := Decode(s);
      assert text[0] == CodePoint(s[..n]) && text[1..] == Decode(s[n..]);
      assert s == s[..n] + s[n..];
    }
  }

  /** An ASCII byte in front adds its own character in front. */
  lemma DecodeAsciiHead(b: byte, rest: seq<byte>)
    requires b < 0x80 && Rfc3629(rest)
    ensures Rfc3629([b] + rest)
    ensures Decode([b] + rest) == [b as int as char] + Decode(rest)
  {
    var s := [b] + rest;
    assert s[..1] == [b] && s[1..] == rest;
    assert Character(s[..1], true);
  }

  /** The first character decoded is the first byte when that is ASCII, and
      is no ASCII character otherwise. */
  lemma DecodeFirst(s: seq<byte>)
    requires |s| > 0 && Rfc3629(s)
    ensures |Decode(s)| > 0
    ensures s[0] < 0x80 ==> Decode(s)[0] as int == s[0] as int
    ensures s[0] >= 0x80 ==> Decode(s)[0] as int >= 0x80
  {
    FirstCharacter(s, true);
  }

  /** F4 90 80 80, the would-be encoding of U+110000, passes the C
      validator although RFC 3629 rejects it. */
  lemma BeyondUnicodeAccepted()
    ensures WellFormed([0xF4, 0x90, 0x80, 0x80])
    ensures !Rfc3629([0xF4, 0x90, 0x80, 0x80])
  {
    var s: seq<byte> := [0xF4, 0x90, 0x80, 0x80];
    assert s[..4] == s && s[4..] == [];
    assert Character(s, false);
    NoLeadingCharacter(s, true);
  }
}

=== FILE: wrappers.dfy ===
/** Optional values, used wherever the native code returns NULL, an
    `Option` or an error that carries no payload. */
module Wrappers {

  datatype Option<+T> = None | Some(value: T) {

    /** The wrapped value, or `default` when there is none (Rust's `unwrap_or`). */
    function GetOr(default: T): (r: T)
      ensures Some? ==> r == value
      ensures None? ==> r == default
    {
      match this
      case Some(v) => v
      case None => default
    }
  }
}
